=== FILE: README.md ===
# RAG chatbot core, modelled in Dafny

This project models the retrieval-augmented answering core of a Django chatbot
backend:

- **`RAGService`** (`rag/services.py`). It embeds text with Mistral, stores and
  searches vectors in a Pinecone index, and generates answers grounded in the
  documents that score above 0.7. Both Mistral calls retry on HTTP 429 with
  exponential backoff: at most 5 attempts, sleeping 2, 4, 8 and 16 seconds.
- **`get_rag_service`**, the process-wide singleton accessor for that service.
- **The chat and indexing endpoints** in `rag/views.py`.
- **The whitespace validators** in `chat/serializers.py`.
- **The 50-character content preview** in `chat/admin.py`.

External services are oracles:

- **Mistral**: a `MistralClient` holds one script of call outcomes for embeddings
  and one for chat. An outcome is `Returned(value)`, `RateLimited` (429),
  `StatusError` (any other API status) or `Raised` (any other exception). Each
  call consumes one outcome; a call past the end of its script raises.
- **Pinecone**: a `PineconeIndex` holds a script of upsert outcomes and a script of
  query outcomes (a list of matches, or a raise).
- **`time.sleep`**: a ghost log of the delays slept, kept by `Clock`.

The retry loops, the search, the context assembly and the indexing loop are
imperative methods. Each is proved against pure reference definitions:

- `Backoff.Retry` / `Backoff.Run` for the retry state machine;
- `RagSpec.SearchOutcome`, `RagSpec.Context` and `RagSpec.Reply` for the service;
- `Views.IndexPass` for the indexing loop. It gives the provider state, call log
  and count after each visited document. Each call's effect is `Views.AddEffect`.
  The loop's properties are stated with `Views.EligibleIndices`, `Views.CountTrue`,
  `Views.EmbedPass` and `Views.Upserted`. `Views.EmbedPass` says which calls the
  embedding script lets issue an upsert. `Views.Upserted` ties each call's outcome
  to that upsert and to the index's scripted answer to it.

The properties are proved as lemmas about those definitions.

Files:

| file | module | contents |
|---|---|---|
| `wrappers.dfy` | `Wrappers` | `Option`, `Result` |
| `text.dfy` | `Text` | Python's `str.isspace`/`strip`, the 50-character abbreviation, `join`, decimal rendering |
| `serializers.dfy` | `Serializers` | `validate_content`, `validate_title` |
| `admin.dfy` | `Admin` | `content_preview` |
| `backoff.dfy` | `Backoff` | the retry/backoff state machine and its lemmas |
| `providers.dfy` | `Providers` | the Mistral, Pinecone and clock oracles, and the metadata dict |
| `rag_spec.dfy` | `RagSpec` | search results, relevance filter, context, prompt, replies, metadata merge |
| `services.dfy` | `Services` | `RAGService` and the singleton registry |
| `views.dfy` | `Views` | `ChatBotView.post`, `DocumentIndexView.post` |

Two consequences of the code are worth stating outright:

- **Sleeps.** Each retried operation sleeps only between attempts: 2, 4, 8 and
  16 seconds, 4 sleeps for 5 attempts, so at most 30 seconds per operation
  (`Backoff.RetrySleepsAtMost30`). One answered query embeds once and generates
  once, so it sleeps at most 60 seconds (`RagSpec.AnswerSleepsAtMost60`).
- **Failed construction.** When building the service raises, `get_rag_service`
  stores `None`. Nothing marks the failure as permanent, so the next call tries
  again (`Services.ServiceRegistry.GetRagService`).

## Model

| member | source | states |
|---|---|---|
| Text.TrimStart | chat/serializers.py:12 | the result is a suffix of the input; everything removed is whitespace; a non-empty result starts with a non-space |
| Text.TrimEnd | chat/serializers.py:12 | the result is a prefix of the input; everything removed is whitespace; a non-empty result ends with a non-space |
| Text.Strip | chat/serializers.py:12 | `strip()` is empty exactly when every character is whitespace; otherwise both ends of the result are non-space |
| Text.Abbreviate | rag/views.py:33 | a session title is the message when it has at most 50 characters; otherwise it is the first 50 characters followed by "..." (53 in all); never longer than 53 |
| Text.Join | rag/services.py:275 | joining no parts gives ""; otherwise the result starts with the first part and ends with the last, and with two or more parts the separator follows the first part |
| Text.JoinEmptyIff | rag/services.py:275 | a join of non-empty parts is empty exactly when there are no parts |
| Text.NatToString | rag/views.py:115 | the rendering of the clock reading and of the count is a non-empty string of decimal digits |
| Text.NatToStringRoundTrip | rag/views.py:115 | reading the rendered digits back gives the number, so a generated id carries the exact clock reading and count |
| Serializers.ValidateContent | chat/serializers.py:10-14 | accepted exactly when some character is non-whitespace (so "" is rejected); an accepted value comes back unchanged, not stripped; the rejection carries "Message content cannot be empty" |
| Serializers.ValidateTitle | chat/serializers.py:33-37 | "" is accepted unchanged; rejected exactly when non-empty and all whitespace, with "Title cannot be empty"; anything else comes back unchanged |
| Admin.ContentPreview | chat/admin.py:22-23 | content of at most 50 characters is shown unchanged; longer content is its first 50 characters plus "..."; the length is min(len, 50), plus 3 when cut; the first min(len, 50) characters agree with the content |
| Admin.ContentPreviewIdempotent | chat/admin.py:23 | previewing a preview gives the same preview |
| Backoff.Schedule | rag/services.py:100-101 | the k-th sleep is 2·2^k: the base delay, doubled after every sleep |
| Backoff.RetryFrom | rag/services.py:103-125 | from any retry state: a call is made only while fewer than 5 have been made; every call before the last was a 429; the last call decides the verdict; a 429 as the last call is the fifth call; the sleeps continue the doubling schedule |
| Backoff.Retry | rag/services.py:100-125 | 1 to 5 calls, with sleeps following the schedule, one fewer sleep than calls |
| Backoff.Run | rag/services.py:96-98 | an unavailable client makes no call, sleeps nothing and yields the unavailable verdict; an available one makes 1 to 5 calls |
| Backoff.RetryStopsAt | rag/services.py:103-125 | after k 429s followed by a non-429 (or a fifth 429), the operation has made exactly k+1 calls and slept 2, 4, …, 2·2^(k-1), and call k decides the outcome |
| Backoff.RetryGivesUpAfterFiveRateLimits | rag/services.py:111-119 | five 429s in a row give up with exactly 5 calls and sleeps [2, 4, 8, 16] |
| Backoff.RetryStopsOnFirstError | rag/services.py:120-125 | a non-429 API error or any other exception on the first call stops at once, with no sleep |
| Backoff.ScheduleSum | rag/services.py:115-116 | the first k sleeps add up to 2·(2^k − 1) seconds |
| Backoff.SumAppend | rag/services.py:115 | sleep totals add up across consecutive operations |
| Backoff.RetrySleepsAtMost30 | rag/services.py:113-119 | one retried operation sleeps at most 30 seconds in all |
| Backoff.RunSleepsAtMost30 | rag/services.py:96-119 | the same bound holds when the client is unavailable |
| Providers.MistralClient.Embeddings | rag/services.py:105 | an embeddings call consumes exactly one scripted outcome and logs its input; the chat script is untouched |
| Providers.MistralClient.Chat | rag/services.py:233 | a chat call consumes exactly one scripted outcome and logs its prompt; the embedding script is untouched |
| Providers.PineconeIndex.Upsert | rag/services.py:158-160 | an upsert logs its vector and succeeds according to the next scripted outcome (an exhausted script raises) |
| Providers.PineconeIndex.Query | rag/services.py:187-191 | a query logs its vector and top-k and returns the next scripted outcome |
| Providers.Clock.Sleep | rag/services.py:115 | a sleep appends its delay to the log |
| RagSpec.Results | rag/services.py:194-204 | one search result per match, in match order, with id, score and the full metadata copied, and title/content read from the metadata with default "" |
| RagSpec.Relevant | rag/services.py:273 | keeps, in order, exactly the results whose score is strictly above 0.7 |
| RagSpec.RelevantAppend | rag/services.py:272-274 | filtering distributes over concatenation, so the context keeps the search order |
| RagSpec.RelevantNone | rag/services.py:273 | results all at or below 0.7 contribute nothing |
| RagSpec.RelevantSingle | rag/services.py:273 | a single result above 0.7 among ones at or below it is the whole relevant list |
| RagSpec.ContextParts | rag/services.py:271-274 | one "Document: {title}\nContent: {content}" entry per relevant result, in order |
| RagSpec.ContextPartsSnoc | rag/services.py:272-274 | visiting one more result appends its entry exactly when its score exceeds 0.7 |
| RagSpec.Context | rag/services.py:271-275 | no relevant result gives the empty context; otherwise the context starts with the first relevant entry, and is exactly that entry when it is the only one |
| RagSpec.ContextUsedIff | rag/services.py:269-275 | the context is non-empty exactly when some result scores above 0.7 |
| RagSpec.ContextOfSingleRelevant | rag/services.py:272-275 | with one relevant result the context is exactly its entry |
| RagSpec.UserPrompt | rag/services.py:230 | the user message is "Context: " followed by the context, and ends with the query followed by the closing request; its length is the sum of its parts' lengths |
| RagSpec.UserPromptDeterminesQuery | rag/services.py:230 | under the same context, two different queries give two different user messages |
| RagSpec.Reply | rag/services.py:220-253 | a successful chat gives the model's text; an unavailable client gives the "no AI service is available" apology, five 429s the "due to high demand" one, another API status the "at the moment" one, any other exception the "at this time" one |
| RagSpec.ApologyNamesTheCause | rag/services.py:221-253 | the four apologies are distinct, so the fallback reply identifies which failure occurred |
| RagSpec.AnswerSleepsAtMost60 | rag/services.py:266-278 | one query answer (search embedding plus generation) sleeps at most 60 seconds |
| RagSpec.EmbeddingOf | rag/services.py:96-125 | any outcome other than success yields the empty embedding; success yields the returned vector |
| RagSpec.IndexEmbedding | rag/services.py:140-144 | with Pinecone or Mistral unavailable, no embedding call is made and nothing is slept |
| RagSpec.SearchOutcome | rag/services.py:177-207 | no results when Pinecone or Mistral is unavailable, the embedding is empty, or the query raises or its script is exhausted; when a query is issued and returns matches, exactly the results of those matches; any non-empty result comes from returned matches |
| RagSpec.Merged | rag/services.py:149-154 | the stored metadata has the caller's keys plus title, content and doc_id, with those three overwritten by the arguments and every other key kept |
| Services.RAGService.constructor | rag/services.py:36-84 | the two availability flags are set from the outcome of each provider's setup |
| Services.RAGService.GetEmbedding | rag/services.py:86-125 | follows `Run` on the embedding script: consumes exactly the calls made, sends the text each time, sleeps the schedule, returns the vector on success and [] otherwise; the chat script is untouched |
| Services.RAGService.AddDocument | rag/services.py:127-164 | false and no upsert when Pinecone is unavailable or the embedding of the content is empty; otherwise exactly one upsert of (doc_id, embedding, merged metadata), whose outcome is the result; a non-empty caller dict is updated in place and an empty one is left alone |
| Services.RAGService.SearchDocuments | rag/services.py:166-207 | the results are `SearchOutcome`; a query is issued only after a non-empty embedding, with that embedding and top-k; no upsert and no chat call |
| Services.RAGService.GenerateResponse | rag/services.py:209-253 | follows `Run` on the chat script: the reply is the model's text or the apology for the verdict; every attempt sends the same prompt, whether or not the context is empty; the sleeps follow the schedule |
| Services.RAGService.BuildContext | rag/services.py:269-275 | the loop builds exactly `Context` of the results: the entries of those scoring above 0.7, in order, joined by a blank line; "" for no results |
| Services.RAGService.ProcessQuery | rag/services.py:255-284 | returns the unfiltered search results; the prompt's context is `Context` of them; context_used holds exactly when some result scores above 0.7; the reply and all provider effects are those of the search followed by one generation: one query with the query's embedding and top-k 3 exactly when the embedding is non-empty, consuming one query outcome; no upsert |
| Services.ServiceRegistry.constructor | rag/services.py:287 | the registry starts with no instance |
| Services.ServiceRegistry.GetRagService | rag/services.py:289-305 | a stored instance is returned without reading the settings; with either key missing or empty, nothing is built and None is returned; with both keys, a construction is attempted and its result is stored, None if it raised, so the next call tries again; a built service is fresh and takes its two flags from the construction's outcome. `Served` states this effect as a two-state predicate, so that the views can state it of the registry after their call |
| Views.ChatBot | rag/views.py:17-86 | a missing or empty message is a 400 "Message is required" and changes nothing; a selected session that is not the user's is a 404; otherwise a new session is titled by `Abbreviate` unless a session was selected, and the answer's reply, documents and stored metadata are those of `AnswerFollows`: the mock reply, the "not initialized" reply, or the service's search results and reply. With both keys, the registry is left as `get_rag_service` leaves it (`Served`); when a service is held, the message is what was embedded on every embedding attempt, and the prompt built from the message and the context of the returned documents is what was sent on every chat attempt |
| Views.BotReply | rag/views.py:43-86 | without both keys: the mock reply, no documents, stored metadata (0, false), no provider call; keys present but no service: the "not initialized" reply, no documents, nothing stored; otherwise the service's reply and documents, with stored relevant_docs_count = number of documents and context_used = some score above 0.7. With both keys the registry is left as `get_rag_service` leaves it (`Served`), so the service the turn depends on is the stored one or the one just built; when it exists, the user's message was embedded on every embedding attempt and its prompt, with the context of the returned documents, was sent on every chat attempt |
| Views.EligibleIndices | rag/views.py:116-119 | the positions of documents with non-empty title and content, in increasing order, each one eligible |
| Views.EligibleIndicesComplete | rag/views.py:119 | no eligible document is skipped |
| Views.EligibleIndicesSnoc | rag/views.py:114-119 | visiting one more document adds its position exactly when it is eligible |
| Views.CountTrue | rag/views.py:126-127 | the success count is at most the number of calls |
| Views.CountTrueExtremes | rag/views.py:126-127 | the count is 0 exactly when no call succeeded, and equals the number of calls exactly when all succeeded |
| Views.CountTrueSnoc | rag/views.py:126-127 | one more call adds one to the count exactly when it succeeded |
| Views.DocId | rag/views.py:115 | a non-empty given id is used verbatim; otherwise the id is "doc_" + clock reading + "_" + the running count |
| Views.IdsLoggedSnoc | rag/views.py:115-125 | each call's id is formed from the count of successes before it |
| Views.ScannedSkip | rag/views.py:119 | an ineligible document causes no call and leaves the count unchanged |
| Views.ScannedAdd | rag/views.py:119-127 | an eligible document causes one call, and the count rises by one exactly when the call succeeded |
| Views.ScannedAll | rag/views.py:112-127 | after the loop, calls were made for exactly the eligible documents, and the count is at most the number of documents |
| Views.AnswerFollows | rag/views.py:47-85 | nothing is stored exactly when both keys are set and no service exists; a stored relevant_docs_count is the number of returned documents and context_used holds exactly when one of them scores above 0.7; documents are returned only by a service with both providers available |
| Views.AnswerFollowsUnique | rag/views.py:47-85 | the bot's turn is a function of the settings, the message, the service and the provider scripts |
| Views.AddOne | rag/views.py:120-125 | one `add_document` call: it embeds the content as `get_embedding` does (consuming embedding outcomes and logging inputs and sleeps, or making no call when Pinecone or Mistral is unavailable); with no embedding it fails and issues no upsert; otherwise it upserts (id, embedding, merged metadata), consumes one upsert outcome and succeeds exactly when the index accepted; the chat script, the prompts, the query script and the queries are untouched |
| Views.OutcomesCount | rag/views.py:126-127 | when each call's outcome is the index's answer to its upsert (or failure without one), the successes number the accepted upserts |
| Views.UpsertedStep | rag/views.py:119-127 | a call that issued one upsert and took the next answer, or issued none and failed, keeps the log tying calls to upserts |
| Views.UpsertedCount | rag/views.py:126-127 | the number of successful calls is the number of the new upserts the index accepted |
| Views.EmbeddedSkip | rag/views.py:119 | an ineligible document makes no embedding call |
| Views.EmbeddedAdd | rag/views.py:119-125 | an eligible document's call consumes the embedding outcomes of one `get_embedding`, logs its inputs and sleeps, and issues an upsert exactly when that gave a non-empty vector |
| Views.EmbedPass | rag/views.py:119-125 | at most one embedding verdict per document, at most 5 inputs per verdict; with Pinecone or Mistral unavailable the script is untouched and nothing is sent or slept (rag/services.py:144 skips the embedding) |
| Views.AddEffect | rag/services.py:140-160 | one call's effect on the provider state: nothing when Pinecone or Mistral is unavailable; the upserts only grow, by at most one; a success means one new upsert, answered by an accepting scripted outcome; at most 5 embedding inputs |
| Views.VisitShape | rag/views.py:114-127 | `Visit`: an ineligible document leaves the loop state as it was; an eligible one logs its position and the id made from the current count, one outcome and one embedding flag, and raises the count exactly when its call succeeded |
| Views.IndexPassShape | rag/views.py:113-127 | `IndexPass`: after `i` visits the call log has one position, id, outcome and embedding flag per call, and the count is at most the calls, which are at most `i` |
| Views.IndexingStart | rag/views.py:112-113 | before the first visit, the empty log and zero count from the starting provider state keep the loop's invariant |
| Views.IndexingVisit | rag/views.py:114-127 | any visit, eligible or not, keeps the loop's invariant |
| Views.IndexingSkip | rag/views.py:119 | an ineligible document leaves the loop state (calls, ids, embedding calls, upserts, count) as it was |
| Views.IndexingAdd | rag/views.py:119-127 | an eligible document extends the loop state by its `add_document` call: its id, its embedding calls, its upsert and the index's answer, and the count |
| Views.IndexPassIndexing | rag/views.py:113-127 | the loop state after every visited document keeps that invariant |
| Views.IndexPassAll | rag/views.py:113-127 | after the loop: calls for exactly the eligible documents, in order, under the logged ids; the embedding calls as `EmbedPass` says; each outcome the index's answer to the call's upsert; the count is the number of successes, which is the number of new upserts the index accepted, at most the number of documents |
| Views.AnsweredVisit | rag/views.py:119-127 | when the embedding call returns a vector and the upsert is accepted, an eligible document costs one embedding outcome and one upsert outcome and raises the count by one |
| Views.IndexPassAnsweredPrefix | rag/views.py:113-127 | with both providers available and scripts that return a non-empty vector for every embedding and accept every upsert, each prefix of the loop indexes all its eligible documents |
| Views.IndexPassAnswered | rag/views.py:113-127 | under those scripts the count is the number of eligible documents and every call succeeded |
| Views.IndexPassUnavailable | rag/views.py:119-127 | with Pinecone or Mistral unavailable every call fails, no provider is called, nothing is upserted and the count stays 0 |
| Views.IndexEach | rag/views.py:113-127 | the loop's final provider state (embedding script, inputs, sleeps, upserts, upsert script), call log and count are exactly `IndexPass`'s, whose properties `IndexPassAll` states; the chat script, the prompts, the query script and the queries are untouched |
| Views.IndexDocuments | rag/views.py:100-135 | an empty list is a 400 "Documents are required"; without a Pinecone key the count is the number of documents and nothing is called; with a key, the registry is left as `get_rag_service` leaves it (`Served`); with a key but no service the count is 0; otherwise the provider state, call log and count are `IndexPass`'s, with the properties `IndexPassAll` states; in every case the chat script, the prompts, the query script and the queries are untouched |

## Left out

- **Network calls.** The Mistral and Pinecone network calls are oracles. Left out with them:
  - model names and request shapes;
  - the HTTP status decoding: a 429 is modelled directly as `RateLimited`;
  - the chat system message: the chat log records only the user prompt.
- **Index management.** Index creation, description, deletion and dimension checks in `RAGService.__init__` (rag/services.py:50-80), including their two 2-second sleeps. The constructor only records whether each provider's setup succeeded.
- **Floating point.** Embeddings are opaque sequences of `real`. Scores are `real`, used only in the `> 0.7` comparison.
- **Metadata values.** They are modelled as strings only. Pinecone also accepts numbers, booleans and lists of strings.
- **Falsy fields.** A missing, `None` or empty request field is one value: "", [] or map[]. Values of other types in request fields are not modelled.
- **`processing_time`.** Not modelled: it is wall-clock arithmetic. Views.BotReply leaves it out of the stored metadata for that reason.
- **Persistence.** The Django ORM persistence of sessions and messages, the serializer output and the HTTP response envelope (`session_id`, `user_message`) are not modelled. The model keeps only the new session's title and the bot's reply, documents and metadata.
- **The indexing clock.** `time.time()` in the indexing loop is the parameter `stamp`: one whole-second reading per visited document.
- **Log lines.** The `print` calls are not modelled.
- **Authentication, throttling, background jobs, configuration, routing and management commands.** Not part of this core.
- **Text.IsSpace.** It covers the code points Python's `str.isspace` accepts. Unicode normalisation and surrogate handling are not modelled.
- **Views.IndexPassAnswered.** It asks for scripts at least as long as the document list, not only as long as the number of eligible documents.
- **Views.AddOne.** It hands `add_document` a copy of the document's metadata. The source passes the request's own dict, which is updated in place but not read again.

=== FILE: admin.dfy ===
/** The admin list column of chat/admin.py that previews a message's content. */
module Admin {
  import opened Text

  /** `MessageAdmin.content_preview`: at most 50 characters of the content, then "..." if it was cut. */
  function ContentPreview(content: string): (r: string)
    ensures |content| <= PreviewLength ==> r == content
    ensures |content| > PreviewLength ==> r == content[..PreviewLength] + Ellipsis
    ensures var kept := if |content| < PreviewLength then |content| else PreviewLength;
            |r| == kept + (if |content| > PreviewLength then |Ellipsis| else 0)
            && r[..kept] == content[..kept]
  {
    Abbreviate(content)
  }

  /** Previewing a preview changes nothing. */
  lemma ContentPreviewIdempotent(content: string)
    ensures ContentPreview(ContentPreview(content)) == ContentPreview(content)
  {
    var p := ContentPreview(content);
    if |content| > PreviewLength {
      assert |p| > PreviewLength;
      assert p[..PreviewLength] == content[..PreviewLength];
    }
  }
}

=== FILE: backoff.dfy ===
/**
 * The bounded retry policy shared by `RAGService.get_embedding` and
 * `RAGService.generate_response`: up to five calls, a sleep of 2, 4, 8 and 16
 * seconds after each rate-limited call except the last, and no retry on any
 * other error. `Retry` is the reference definition the two loops are proved
 * against; the lemmas below state the schedule it follows.
 */
module Backoff {

  /** `RAGService.MAX_RETRIES`: the most calls one operation makes. */
  const MaxRetries: nat := 5

  /** `RAGService.BASE_DELAY`: the first back-off delay, in seconds. */
  const BaseDelay: nat := 2

  /** What one call to the provider did. */
  datatype CallOutcome<T> =
    | Returned(value: T)  // the call produced a value
    | RateLimited         // MistralAPIStatusException whose status is 429
    | StatusError         // MistralAPIStatusException with any other status
    | Raised              // any other exception

  /** How a retried operation ended. */
  datatype Verdict<T> =
    | Succeeded(value: T)   // some call returned a value
    | RateLimitExhausted    // five calls in a row were rate limited
    | StatusFailed          // a call failed with a status other than 429
    | OtherFailed           // a call raised some other exception
    | Unavailable           // the client was never set up, so no call was made

  /** The verdict, the delays slept, in order, and the number of calls made. */
  datatype Attempts<T> = Attempts(verdict: Verdict<T>, sleeps: seq<nat>, calls: nat)

  /** The outcome of call number `i` (from 0) of a scripted provider; past the script, calls raise. */
  function At<T>(script: seq<CallOutcome<T>>, i: nat): CallOutcome<T>
  {
    if i < |script| then script[i] else Raised
  }

  /** What is left of a script after `n` calls. */
  function Drop<T>(script: seq<T>, n: nat): (r: seq<T>)
    ensures n <= |script| ==> r == script[n..]
    ensures n >= |script| ==> r == []
  {
    if n <= |script| then script[n..] else []
  }

  /** The same value, `n` times. */
  function Repeat<T>(x: T, n: nat): (r: seq<T>)
    ensures |r| == n
  {
    seq(n, _ => x)
  }

  /** One more call of the same kind extends the input log by one more copy. */
  lemma RepeatSnoc<T>(x: T, n: nat)
    ensures Repeat(x, n) + [x] == Repeat(x, n + 1)
  {
  }

  /** The script position after `n` calls: its head is call `n`, and one more call moves past it. */
  lemma DropStep<T>(script: seq<CallOutcome<T>>, n: nat)
    ensures At(Drop(script, n), 0) == At(script, n)
    ensures Drop(Drop(script, n), 1) == Drop(script, n + 1)
  {
  }

  function Pow2(n: nat): nat
  {
    if n == 0 then 1 else 2 * Pow2(n - 1)
  }

  /** The first `k` back-off delays: 2, 4, 8, ... */
  function Schedule(k: nat): (r: seq<nat>)
    ensures |r| == k && forall i :: 0 <= i < k ==> r[i] == BaseDelay * Pow2(i)
  {
    seq(k, i requires 0 <= i < k => BaseDelay * Pow2(i))
  }

  /** Sleeping once more extends the schedule by its next delay. */
  lemma ScheduleSnoc(k: nat)
    ensures Schedule(k) + [BaseDelay * Pow2(k)] == Schedule(k + 1)
  {
  }

  /** How the operation ends when the call that stops it has outcome `o`. */
  function Final<T>(o: CallOutcome<T>): Verdict<T>
  {
    match o
    case Returned(v) => Succeeded(v)
    case RateLimited => RateLimitExhausted
    case StatusError => StatusFailed
    case Raised => OtherFailed
  }

  /**
   * The retry loop from the state `retries` (rate-limited calls so far) and
   * `delay` (the next sleep). Every call before the last one was rate limited,
   * the last call decides the verdict, and a rate-limited last call is the
   * fifth.
   */
  function RetryFrom<T>(script: seq<CallOutcome<T>>, retries: nat, delay: nat): (a: Attempts<T>)
    requires retries < MaxRetries
    decreases MaxRetries - retries
    ensures retries < a.calls <= MaxRetries
    ensures |a.sleeps| == a.calls - 1 - retries
    ensures forall i :: 0 <= i < |a.sleeps| ==> a.sleeps[i] == delay * Pow2(i)
    ensures forall j :: retries <= j < a.calls - 1 ==> At(script, j) == RateLimited
    ensures a.verdict == Final(At(script, a.calls - 1))
    ensures At(script, a.calls - 1) == RateLimited ==> a.calls == MaxRetries
  {
    match At(script, retries)
    case Returned(v) => Attempts(Succeeded(v), [], retries + 1)
    case RateLimited =>
      if retries + 1 < MaxRetries then
        var rest := RetryFrom(script, retries + 1, delay * 2);
        assert forall i :: 0 <= i < |rest.sleeps| ==> rest.sleeps[i] == delay * Pow2(i + 1);
        Attempts(rest.verdict, [delay] + rest.sleeps, rest.calls)
      else
        Attempts(RateLimitExhausted, [], MaxRetries)
    case StatusError => Attempts(StatusFailed, [], retries + 1)
    case Raised => Attempts(OtherFailed, [], retries + 1)
  }

  /** One retried operation against a fresh script position. */
  function Retry<T>(script: seq<CallOutcome<T>>): (a: Attempts<T>)
    ensures 1 <= a.calls <= MaxRetries
    ensures a.sleeps == Schedule(a.calls - 1)
  {
    RetryFrom(script, 0, BaseDelay)
  }

  /** `Retry` when the client is available; no call at all when it is not. */
  function Run<T>(available: bool, script: seq<CallOutcome<T>>): (a: Attempts<T>)
    ensures !available ==> a == Attempts(Unavailable, [], 0)
    ensures available ==> a.verdict != Unavailable && 1 <= a.calls <= MaxRetries
  {
    if available then Retry(script) else Attempts(Unavailable, [], 0)
  }

  /**
   * The operation stops at call `k` exactly when calls 0..k-1 were rate
   * limited and call `k` was not, or was the fifth: it has then made k + 1
   * calls, slept k times on the schedule 2, 4, 8, ..., and its verdict is
   * decided by call `k`.
   */
  lemma {:induction false} RetryStopsAt<T>(script: seq<CallOutcome<T>>, k: nat)
    requires k < MaxRetries
    requires forall j :: 0 <= j < k ==> At(script, j) == RateLimited
    requires At(script, k) != RateLimited || k == MaxRetries - 1
    ensures Retry(script) == Attempts(Final(At(script, k)), Schedule(k), k + 1)
  {
  }

  /** Five rate-limited calls in a row: give up after sleeping 2, 4, 8 and 16 seconds. */
  lemma RetryGivesUpAfterFiveRateLimits<T>(script: seq<CallOutcome<T>>)
    requires forall j :: 0 <= j < MaxRetries ==> At(script, j) == RateLimited
    ensures Retry(script) == Attempts(RateLimitExhausted, [2, 4, 8, 16], 5)
  {
    RetryStopsAt(script, MaxRetries - 1);
    assert Schedule(4) == [2, 4, 8, 16] by {
      assert Pow2(1) == 2 && Pow2(2) == 4 && Pow2(3) == 8;
    }
  }

  /** Any other error on the first call: stop at once, without sleeping. */
  lemma RetryStopsOnFirstError<T>(script: seq<CallOutcome<T>>)
    requires At(script, 0) == StatusError || At(script, 0) == Raised
    ensures Retry(script).calls == 1 && Retry(script).sleeps == []
    ensures Retry(script).verdict == (if At(script, 0) == StatusError then StatusFailed else OtherFailed)
  {
    RetryStopsAt(script, 0);
  }

  function Sum(s: seq<nat>): nat
  {
    if s == [] then 0 else s[0] + Sum(s[1..])
  }

  lemma {:induction false} ScheduleSum(k: nat)
    ensures Sum(Schedule(k)) == BaseDelay * (Pow2(k) - 1)
  {
    if k > 0 {
      var s := Schedule(k);
      ScheduleSum(k - 1);
      SumSnoc(Schedule(k - 1), BaseDelay * Pow2(k - 1));
      assert s == Schedule(k - 1) + [BaseDelay * Pow2(k - 1)];
    }
  }

  lemma {:induction false} SumSnoc(s: seq<nat>, x: nat)
    ensures Sum(s + [x]) == Sum(s) + x
  {
    if s != [] {
      assert (s + [x])[1..] == s[1..] + [x];
      SumSnoc(s[1..], x);
    }
  }

  lemma {:induction false} SumAppend(a: seq<nat>, b: seq<nat>)
    ensures Sum(a + b) == Sum(a) + Sum(b)
  {
    if a == [] {
      assert a + b == b;
    } else {
      assert (a + b)[0] == a[0] && (a + b)[1..] == a[1..] + b;
      SumAppend(a[1..], b);
    }
  }

  /** One retried operation sleeps at most 2 + 4 + 8 + 16 = 30 seconds in all. */
  lemma RetrySleepsAtMost30<T>(script: seq<CallOutcome<T>>)
    ensures Sum(Retry(script).sleeps) <= 30
  {
    var a := Retry(script);
    var k := a.calls - 1;
    assert a.sleeps == Schedule(k);
    ScheduleSum(k);
    Pow2AtMost16(k);
  }

  lemma Pow2AtMost16(k: nat)
    requires k < MaxRetries
    ensures Pow2(k) <= 16
  {
    assert Pow2(1) == 2 && Pow2(2) == 4 && Pow2(3) == 8 && Pow2(4) == 16;
  }

  /** Whether or not the client is available, one operation sleeps at most 30 seconds. */
  lemma RunSleepsAtMost30<T>(available: bool, script: seq<CallOutcome<T>>)
    ensures Sum(Run(available, script).sleeps) <= 30
  {
    if available {
      RetrySleepsAtMost30(script);
    }
  }
}

=== FILE: providers.dfy ===
/**
 * The external collaborators of RAGService, reduced to scripted oracles:
 * the Mistral client answers each call with the next outcome of its script,
 * the Pinecone index accepts or refuses each upsert and answers each query
 * from its own script, and `time.sleep` only appends to a ghost log. Each
 * oracle also keeps a ghost log of the requests it received.
 */
module Providers {
  import opened Backoff

  /** An embedding vector; its numbers are never inspected here. */
  type Embedding = seq<real>

  /** A metadata dictionary as stored in the index (string values only). */
  type Metadata = map<string, string>

  /** A match returned by an index query. */
  datatype Match = Match(id: string, score: real, metadata: Metadata)

  /** The answer to one index query: its matches, best first, or an exception. */
  datatype QueryOutcome = Matches(matches: seq<Match>) | QueryRaised

  /** One `(id, values, metadata)` triple sent to `index.upsert`. */
  datatype Vector = Vector(id: string, values: Embedding, metadata: Metadata)

  /** One `index.query(vector=..., top_k=...)` request. */
  datatype QueryRequest = QueryRequest(vector: Embedding, topK: nat)

  /** The Mistral client: `embeddings(...)` and `chat(...)` as scripted outcomes. */
  class MistralClient {
    var embedScript: seq<CallOutcome<Embedding>>
    var chatScript: seq<CallOutcome<string>>
    ghost var embedInputs: seq<string>
    ghost var chatPrompts: seq<string>

    constructor (embedScript: seq<CallOutcome<Embedding>>, chatScript: seq<CallOutcome<string>>)
      ensures this.embedScript == embedScript && this.chatScript == chatScript
      ensures embedInputs == [] && chatPrompts == []
    {
      this.embedScript := embedScript;
      this.chatScript := chatScript;
      embedInputs := [];
      chatPrompts := [];
    }

    /** `embeddings(model="mistral-embed", input=[text])`. */
    method Embeddings(text: string) returns (o: CallOutcome<Embedding>)
      modifies this
      ensures o == At(old(embedScript), 0) && embedScript == Drop(old(embedScript), 1)
      ensures embedInputs == old(embedInputs) + [text]
      ensures chatScript == old(chatScript) && chatPrompts == old(chatPrompts)
    {
      o := if embedScript == [] then Raised else embedScript[0];
      embedScript := Drop(embedScript, 1);
      embedInputs := embedInputs + [text];
    }

    /** `chat(model=..., messages=[system, user])`, where `prompt` is the user message. */
    method Chat(prompt: string) returns (o: CallOutcome<string>)
      modifies this
      ensures o == At(old(chatScript), 0) && chatScript == Drop(old(chatScript), 1)
      ensures chatPrompts == old(chatPrompts) + [prompt]
      ensures embedScript == old(embedScript) && embedInputs == old(embedInputs)
    {
      o := if chatScript == [] then Raised else chatScript[0];
      chatScript := Drop(chatScript, 1);
      chatPrompts := chatPrompts + [prompt];
    }
  }

  /** The Pinecone index handle. */
  class PineconeIndex {
    /** For each upsert in turn: true if it is accepted, false if it raises. */
    var upsertScript: seq<bool>
    var queryScript: seq<QueryOutcome>
    ghost var upserts: seq<Vector>
    ghost var queries: seq<QueryRequest>

    constructor (upsertScript: seq<bool>, queryScript: seq<QueryOutcome>)
      ensures this.upsertScript == upsertScript && this.queryScript == queryScript
      ensures upserts == [] && queries == []
    {
      this.upsertScript := upsertScript;
      this.queryScript := queryScript;
      upserts := [];
      queries := [];
    }

    /** `upsert(vectors=[v])`; `accepted` is false when the call raises. */
    method Upsert(v: Vector) returns (accepted: bool)
      modifies this
      ensures accepted == (old(upsertScript) != [] && old(upsertScript)[0])
      ensures upsertScript == Drop(old(upsertScript), 1) && upserts == old(upserts) + [v]
      ensures queryScript == old(queryScript) && queries == old(queries)
    {
      accepted := upsertScript != [] && upsertScript[0];
      upsertScript := Drop(upsertScript, 1);
      upserts := upserts + [v];
    }

    /** `query(vector=vector, top_k=topK, include_metadata=True)`. */
    method Query(vector: Embedding, topK: nat) returns (o: QueryOutcome)
      modifies this
      ensures o == (if old(queryScript) == [] then QueryRaised else old(queryScript)[0])
      ensures queryScript == Drop(old(queryScript), 1)
      ensures queries == old(queries) + [QueryRequest(vector, topK)]
      ensures upsertScript == old(upsertScript) && upserts == old(upserts)
    {
      o := if queryScript == [] then QueryRaised else queryScript[0];
      queryScript := Drop(queryScript, 1);
      queries := queries + [QueryRequest(vector, topK)];
    }
  }

  /** `time.sleep`, kept only as the ghost log of the delays slept. */
  class Clock {
    ghost var slept: seq<nat>

    constructor ()
      ensures slept == []
    {
      slept := [];
    }

    method Sleep(seconds: nat)
      modifies this
      ensures slept == old(slept) + [seconds]
    {
      slept := slept + [seconds];
    }
  }

  /** A caller's metadata dictionary, which `add_document` may update in place. */
  class MetaDict {
    var entries: Metadata

    constructor (entries: Metadata)
      ensures this.entries == entries
    {
      this.entries := entries;
    }
  }
}

=== FILE: rag_spec.dfy ===
/**
 * Reference definitions for the RAG pipeline of rag/services.py: how query
 * matches become search results, which results are relevant enough to ground
 * an answer, the context string and prompt built from them, the replies
 * `generate_response` can give, and the metadata `add_document` stores.
 * The methods of Services are proved against these; the lemmas here state
 * what they guarantee.
 */
module RagSpec {
  import opened Text
  import opened Backoff
  import opened Providers

  /** Only results scoring strictly above this ground the generated answer. */
  const RelevanceThreshold: real := 0.7

  /** `search_documents`' default `top_k`. */
  const DefaultTopK: nat := 3

  /** Separator between the context entries of two documents. */
  const ContextSeparator: string := "\n\n"

  /** One document found by a search. */
  datatype SearchResult = SearchResult(id: string, score: real, title: string, content: string, metadata: Metadata)

  /** What `process_query` returns. */
  datatype RagResult = RagResult(response: string, relevantDocuments: seq<SearchResult>, contextUsed: bool)

  /** `metadata.get(key, '')`. */
  function MetaGet(m: Metadata, key: string): string
  {
    if key in m then m[key] else ""
  }

  /** The record built from one match. */
  function ResultOf(m: Match): SearchResult
  {
    SearchResult(m.id, m.score, MetaGet(m.metadata, "title"), MetaGet(m.metadata, "content"), m.metadata)
  }

  /**
   * The results of a successful query: one record per match, in match order,
   * carrying the match's id, score and full metadata, with the title and the
   * content read from the metadata and defaulting to "".
   */
  function Results(ms: seq<Match>): (r: seq<SearchResult>)
    ensures |r| == |ms|
    ensures forall i :: 0 <= i < |ms| ==>
              r[i].id == ms[i].id && r[i].score == ms[i].score && r[i].metadata == ms[i].metadata
              && r[i].title == MetaGet(ms[i].metadata, "title")
              && r[i].content == MetaGet(ms[i].metadata, "content")
  {
    seq(|ms|, i requires 0 <= i < |ms| => ResultOf(ms[i]))
  }

  /** The results that pass the relevance threshold, in search order. */
  function Relevant(docs: seq<SearchResult>): (r: seq<SearchResult>)
    ensures |r| <= |docs|
    ensures forall d :: d in r <==> d in docs && d.score > RelevanceThreshold
  {
    if docs == [] then []
    else
      var last := docs[|docs| - 1];
      Relevant(docs[..|docs| - 1]) + (if last.score > RelevanceThreshold then [last] else [])
  }

  /** The filter keeps the search order: it distributes over concatenation. */
  lemma {:induction false} RelevantAppend(a: seq<SearchResult>, b: seq<SearchResult>)
    ensures Relevant(a + b) == Relevant(a) + Relevant(b)
  {
    if b != [] {
      var last := b[|b| - 1];
      assert (a + b)[..|a + b| - 1] == a + b[..|b| - 1];
      RelevantAppend(a, b[..|b| - 1]);
    } else {
      assert a + b == a;
    }
  }

  /** Nothing passes the filter when no result scores above the threshold. */
  lemma {:induction false} RelevantNone(docs: seq<SearchResult>)
    requires forall i :: 0 <= i < |docs| ==> docs[i].score <= RelevanceThreshold
    ensures Relevant(docs) == []
  {
    if docs != [] {
      RelevantNone(docs[..|docs| - 1]);
    }
  }

  /** A document's entry in the context: `f"Document: {title}\nContent: {content}"`. */
  function Entry(d: SearchResult): string
  {
    DocumentLabel + d.title + ContentLabel + d.content
  }

  const DocumentLabel: string := "Document: "
  const ContentLabel: string := "\nContent: "

  /** The entries of the relevant documents, in search order. */
  function ContextParts(docs: seq<SearchResult>): (parts: seq<string>)
    ensures |parts| == |Relevant(docs)|
    ensures forall j :: 0 <= j < |parts| ==> parts[j] == Entry(Relevant(docs)[j])
  {
    var rel := Relevant(docs);
    seq(|rel|, j requires 0 <= j < |rel| => Entry(rel[j]))
  }

  /** Scanning one more result adds its entry exactly when it is relevant. */
  lemma ContextPartsSnoc(docs: seq<SearchResult>, i: nat)
    requires i < |docs|
    ensures ContextParts(docs[..i + 1]) ==
            ContextParts(docs[..i]) + (if docs[i].score > RelevanceThreshold then [Entry(docs[i])] else [])
  {
    var d := docs[i];
    assert docs[..i + 1] == docs[..i] + [d];
    assert (docs[..i] + [d])[..i] == docs[..i];
  }

  /** The generation context: the relevant entries joined by blank lines. */
  function Context(docs: seq<SearchResult>): (c: string)
    ensures Relevant(docs) == [] ==> c == ""
    ensures Relevant(docs) != [] ==> Entry(Relevant(docs)[0]) <= c
    ensures |Relevant(docs)| == 1 ==> c == Entry(Relevant(docs)[0])
  {
    Join(ContextSeparator, ContextParts(docs))
  }

  /** The context is non-empty exactly when some result scores above the threshold. */
  lemma ContextUsedIff(docs: seq<SearchResult>)
    ensures Context(docs) != "" <==> exists i :: 0 <= i < |docs| && docs[i].score > RelevanceThreshold
  {
    var parts := ContextParts(docs);
    forall j | 0 <= j < |parts| ensures parts[j] != "" {
      assert |parts[j]| >= |DocumentLabel|;
    }
    JoinEmptyIff(ContextSeparator, parts);
    if exists i :: 0 <= i < |docs| && docs[i].score > RelevanceThreshold {
      var i :| 0 <= i < |docs| && docs[i].score > RelevanceThreshold;
      assert docs[i] in Relevant(docs);
    }
  }

  /** When only `x` passes the threshold, the filter keeps `x` alone. */
  lemma RelevantSingle(before: seq<SearchResult>, x: SearchResult, after: seq<SearchResult>)
    requires x.score > RelevanceThreshold
    requires forall i :: 0 <= i < |before| ==> before[i].score <= RelevanceThreshold
    requires forall i :: 0 <= i < |after| ==> after[i].score <= RelevanceThreshold
    ensures Relevant(before + [x] + after) == [x]
  {
    RelevantNone(before);
    RelevantNone(after);
    assert Relevant([x]) == [x] by {
      assert [x][..0] == [];
    }
    RelevantAppend(before + [x], after);
    RelevantAppend(before, [x]);
  }

  /**
   * When only `x` passes the threshold, the context is that one document's
   * entry, whatever the results around it are.
   */
  lemma ContextOfSingleRelevant(before: seq<SearchResult>, x: SearchResult, after: seq<SearchResult>)
    requires x.score > RelevanceThreshold
    requires forall i :: 0 <= i < |before| ==> before[i].score <= RelevanceThreshold
    requires forall i :: 0 <= i < |after| ==> after[i].score <= RelevanceThreshold
    ensures Context(before + [x] + after) == Entry(x)
  {
    RelevantSingle(before, x, after);
    assert ContextParts(before + [x] + after) == [Entry(x)];
  }

  const ContextLabel: string := "Context: "
  const QuestionLabel: string := "\n\nQuestion: "
  const PromptClosing: string := "\n\nPlease provide a helpful and accurate response based on the given context."

  /** The user message of every chat request, whether or not the context is empty. */
  function UserPrompt(query: string, context: string): (p: string)
    ensures |p| == |ContextLabel| + |context| + |QuestionLabel| + |query| + |PromptClosing|
    ensures p[..|ContextLabel|] == ContextLabel
    ensures p[|ContextLabel|..|ContextLabel| + |context|] == context
    ensures p[|p| - |PromptClosing| - |query|..|p| - |PromptClosing|] == query
    ensures p[|p| - |PromptClosing|..] == PromptClosing
  {
    ContextLabel + context + QuestionLabel + query + PromptClosing
  }

  /** The prompt determines the question: under the same context, two queries give the same prompt only if they are equal. */
  lemma UserPromptDeterminesQuery(query: string, other: string, context: string)
    requires UserPrompt(query, context) == UserPrompt(other, context)
    ensures query == other
  {
    var p := UserPrompt(query, context);
    assert |query| == |other|;
    assert query == p[|p| - |PromptClosing| - |query|..|p| - |PromptClosing|];
  }

  const NoServiceReply: string := "I apologize, but no AI service is available at the moment."
  const HighDemandReply: string :=
    "I apologize, but I'm having trouble generating a response at the moment due to high demand."
  const StatusErrorReply: string := "I apologize, but I'm having trouble generating a response at the moment."
  const OtherErrorReply: string := "I apologize, but I'm having trouble generating a response at this time."

  /**
   * The reply `generate_response` gives for a verdict: the model's text on
   * success, otherwise one of four fixed apologies.
   */
  function Reply(v: Verdict<string>): (r: string)
    ensures v.Succeeded? ==> r == v.value
    ensures !v.Succeeded? ==> r in {NoServiceReply, HighDemandReply, StatusErrorReply, OtherErrorReply}
    ensures v.Unavailable? ==> r == NoServiceReply
    ensures v.RateLimitExhausted? ==> r == HighDemandReply
    ensures v.StatusFailed? ==> r == StatusErrorReply
    ensures v.OtherFailed? ==> r == OtherErrorReply
  {
    match v
    case Succeeded(text) => text
    case Unavailable => NoServiceReply
    case RateLimitExhausted => HighDemandReply
    case StatusFailed => StatusErrorReply
    case OtherFailed => OtherErrorReply
  }

  /** The four apologies are distinct, so a fallback reply tells which failure happened. */
  lemma ApologyNamesTheCause(v: Verdict<string>, w: Verdict<string>)
    requires !v.Succeeded? && !w.Succeeded?
    requires Reply(v) == Reply(w)
    ensures v == w
  {
    assert |NoServiceReply| != |HighDemandReply| && |NoServiceReply| != |StatusErrorReply|
      && |NoServiceReply| != |OtherErrorReply| && |HighDemandReply| != |StatusErrorReply|
      && |HighDemandReply| != |OtherErrorReply| && |StatusErrorReply| != |OtherErrorReply|;
  }

  /**
   * Answering a query sleeps at most 60 seconds: at most 30 while embedding
   * the query and at most 30 while generating the reply.
   */
  lemma AnswerSleepsAtMost60(pineconeAvailable: bool, mistralAvailable: bool,
                             embedScript: seq<CallOutcome<Embedding>>, chatScript: seq<CallOutcome<string>>)
    ensures Sum(IndexEmbedding(pineconeAvailable, mistralAvailable, embedScript).sleeps
                + Run(mistralAvailable, chatScript).sleeps) <= 60
  {
    var e := IndexEmbedding(pineconeAvailable, mistralAvailable, embedScript);
    var g := Run(mistralAvailable, chatScript);
    SumAppend(e.sleeps, g.sleeps);
    RunSleepsAtMost30(mistralAvailable, embedScript);
    RunSleepsAtMost30(mistralAvailable, chatScript);
  }

  /** The embedding `get_embedding` returns for a verdict: the vector on success, else []. */
  function EmbeddingOf(v: Verdict<Embedding>): (e: Embedding)
    ensures !v.Succeeded? ==> e == []
    ensures v.Succeeded? ==> e == v.value
  {
    if v.Succeeded? then v.value else []
  }

  /** The embedding attempts of an index operation, which embeds only if Pinecone is available. */
  function IndexEmbedding(pineconeAvailable: bool, mistralAvailable: bool,
                          embedScript: seq<CallOutcome<Embedding>>): (a: Attempts<Embedding>)
    ensures !pineconeAvailable || !mistralAvailable ==> a == Attempts(Unavailable, [], 0)
  {
    if pineconeAvailable then Run(mistralAvailable, embedScript) else Attempts(Unavailable, [], 0)
  }

  /** Whether a search gets as far as querying the index. */
  predicate SearchQueries(pineconeAvailable: bool, mistralAvailable: bool, embedScript: seq<CallOutcome<Embedding>>)
  {
    EmbeddingOf(IndexEmbedding(pineconeAvailable, mistralAvailable, embedScript).verdict) != []
  }

  /**
   * What `search_documents` returns: [] when Pinecone or Mistral is
   * unavailable, when the query embedding is empty or when the query raises;
   * otherwise the results of the matches.
   */
  function SearchOutcome(pineconeAvailable: bool, mistralAvailable: bool,
                         embedScript: seq<CallOutcome<Embedding>>, queryScript: seq<QueryOutcome>)
    : (r: seq<SearchResult>)
    ensures !pineconeAvailable || !mistralAvailable ==> r == []
    ensures !SearchQueries(pineconeAvailable, mistralAvailable, embedScript) ==> r == []
    ensures r != [] ==> queryScript != [] && queryScript[0].Matches?
                        && r == Results(queryScript[0].matches)
    ensures && SearchQueries(pineconeAvailable, mistralAvailable, embedScript)
            && queryScript != [] && queryScript[0].Matches?
            ==> r == Results(queryScript[0].matches)
    ensures (queryScript == [] || queryScript[0].QueryRaised?) ==> r == []
  {
    if !SearchQueries(pineconeAvailable, mistralAvailable, embedScript) then []
    else if queryScript == [] then []
    else match queryScript[0]
      case Matches(ms) => Results(ms)
      case QueryRaised => []
  }

  /**
   * `metadata.update({'title': ..., 'content': ..., 'doc_id': ...})`: the
   * three keys take the arguments' values and every other key is kept.
   */
  function Merged(m: Metadata, title: string, content: string, docId: string): (r: Metadata)
    ensures r.Keys == m.Keys + {"title", "content", "doc_id"}
    ensures r["title"] == title && r["content"] == content && r["doc_id"] == docId
    ensures forall k :: k in m && k != "title" && k != "content" && k != "doc_id" ==> r[k] == m[k]
  {
    m["title" := title]["content" := content]["doc_id" := docId]
  }
}

=== FILE: serializers.dfy ===
/**
 * The field validators of chat/serializers.py. Each strips the value only to
 * decide; an accepted value is returned exactly as it was given.
 */
module Serializers {
  import opened Text
  import opened Wrappers

  const EmptyContentError: string := "Message content cannot be empty"
  const EmptyTitleError: string := "Title cannot be empty"

  /** `MessageSerializer.validate_content`: message content must hold a non-whitespace character. */
  function ValidateContent(value: string): (r: Result<string, string>)
    ensures r.Ok? <==> exists i :: 0 <= i < |value| && !IsSpace(value[i])
    ensures r.Ok? ==> r.value == value
    ensures r.Err? ==> r.error == EmptyContentError
  {
    if Strip(value) == [] then Err(EmptyContentError) else Ok(value)
  }

  /**
   * `ChatSessionCreateSerializer.validate_title`: a title may be left empty,
   * but a non-empty title made only of whitespace is refused.
   */
  function ValidateTitle(value: string): (r: Result<string, string>)
    ensures value == "" ==> r == Ok(value)
    ensures r.Err? <==> value != "" && forall i :: 0 <= i < |value| ==> IsSpace(value[i])
    ensures r.Ok? ==> r.value == value
    ensures r.Err? ==> r.error == EmptyTitleError
  {
    if value != "" && Strip(value) == [] then Err(EmptyTitleError) else Ok(value)
  }
}

=== FILE: services.dfy ===
/**
 * rag/services.py: the RAGService object and the process-wide accessor
 * `get_rag_service`. Mistral, Pinecone and the clock are the oracles of
 * Providers; every method is proved against the reference definitions of
 * Backoff and RagSpec.
 */
module Services {
  import opened Wrappers
  import opened Backoff
  import opened Providers
  import opened RagSpec
  import opened Text

  class RAGService {
    /** Whether the Mistral client was set up; checked before every embedding and chat call. */
    var mistralAvailable: bool
    /** Whether the Pinecone index was set up; checked before every upsert and query. */
    var pineconeAvailable: bool
    const mistral: MistralClient
    const index: PineconeIndex
    const clock: Clock

    /**
     * `RAGService()`: each provider's setup either succeeds or is caught and
     * recorded as a false availability flag.
     */
    constructor (mistralReady: bool, pineconeReady: bool, mistral: MistralClient, index: PineconeIndex, clock: Clock)
      ensures mistralAvailable == mistralReady && pineconeAvailable == pineconeReady
      ensures this.mistral == mistral && this.index == index && this.clock == clock
    {
      mistralAvailable := mistralReady;
      pineconeAvailable := pineconeReady;
      this.mistral := mistral;
      this.index := index;
      this.clock := clock;
    }

    /**
     * `get_embedding`: the retried embedding call. It follows `Retry` on the
     * embedding script, sleeping on its schedule, and yields the embedding
     * on success and [] otherwise (at once, with no call, when Mistral is
     * unavailable).
     */
    method GetEmbedding(text: string) returns (embedding: Embedding)
      modifies mistral, clock
      ensures var a := Run(mistralAvailable, old(mistral.embedScript));
              && embedding == EmbeddingOf(a.verdict)
              && mistral.embedScript == Drop(old(mistral.embedScript), a.calls)
              && mistral.embedInputs == old(mistral.embedInputs) + Repeat(text, a.calls)
              && clock.slept == old(clock.slept) + a.sleeps
      ensures mistral.chatScript == old(mistral.chatScript) && mistral.chatPrompts == old(mistral.chatPrompts)
    {
      if !mistralAvailable {
        return [];
      }
      ghost var script, inputs0, slept0 := mistral.embedScript, mistral.embedInputs, clock.slept;
      ghost var chatScript0, prompts0 := mistral.chatScript, mistral.chatPrompts;
      var retries: nat := 0;
      var delay: nat := BaseDelay;
      while retries < MaxRetries
        invariant retries < MaxRetries
        invariant delay == BaseDelay * Pow2(retries)
        invariant forall j :: 0 <= j < retries ==> At(script, j) == RateLimited
        invariant mistral.embedScript == Drop(script, retries)
        invariant mistral.embedInputs == inputs0 + Repeat(text, retries)
        invariant clock.slept == slept0 + Schedule(retries)
        invariant mistral.chatScript == chatScript0 && mistral.chatPrompts == prompts0
      {
        DropStep(script, retries);
        RepeatSnoc(text, retries);
        var outcome := mistral.Embeddings(text);
        if outcome.RateLimited? {
          retries := retries + 1;
          if retries == MaxRetries {
            RetryStopsAt(script, retries - 1);
            return [];
          }
          ScheduleSnoc(retries - 1);
          clock.Sleep(delay);
          delay := delay * 2;
        } else {
          // Any other API status and any other exception both give [].
          RetryStopsAt(script, retries);
          return if outcome.Returned? then outcome.value else [];
        }
      }
    }

    /**
     * `add_document`: embeds the content (not the title) and, when that
     * gives a non-empty vector, merges title, content and id into the
     * metadata and issues exactly one upsert. A non-empty caller dictionary
     * is updated in place; an empty or absent one is left alone.
     */
    method AddDocument(docId: string, title: string, content: string, metadata: MetaDict?) returns (ok: bool)
      modifies mistral, index, clock, metadata
      ensures var a := IndexEmbedding(pineconeAvailable, mistralAvailable, old(mistral.embedScript));
              && mistral.embedScript == Drop(old(mistral.embedScript), a.calls)
              && mistral.embedInputs == old(mistral.embedInputs) + Repeat(content, a.calls)
              && clock.slept == old(clock.slept) + a.sleeps
      ensures mistral.chatScript == old(mistral.chatScript) && mistral.chatPrompts == old(mistral.chatPrompts)
      ensures index.queryScript == old(index.queryScript) && index.queries == old(index.queries)
      ensures var e := EmbeddingOf(IndexEmbedding(pineconeAvailable, mistralAvailable, old(mistral.embedScript)).verdict);
              e == [] ==>
                && !ok
                && index.upserts == old(index.upserts) && index.upsertScript == old(index.upsertScript)
                && (metadata != null ==> metadata.entries == old(metadata.entries))
      ensures var e := EmbeddingOf(IndexEmbedding(pineconeAvailable, mistralAvailable, old(mistral.embedScript)).verdict);
              var given := if metadata == null then map[] else old(metadata.entries);
              var stored := Merged(given, title, content, docId);
              e != [] ==>
                && index.upserts == old(index.upserts) + [Vector(docId, e, stored)]
                && index.upsertScript == Drop(old(index.upsertScript), 1)
                && ok == (old(index.upsertScript) != [] && old(index.upsertScript)[0])
                && (metadata != null ==> metadata.entries == if given == map[] then given else stored)
    {
      if !pineconeAvailable {
        return false;
      }
      var embedding := GetEmbedding(content);
      if embedding == [] {
        return false;
      }
      var target: MetaDict;
      if metadata != null && metadata.entries != map[] {
        target := metadata;
      } else {
        target := new MetaDict(map[]);
      }
      target.entries := Merged(target.entries, title, content, docId);
      ok := index.Upsert(Vector(docId, embedding, target.entries));
    }

    /**
     * `search_documents`: embeds the query and turns the index's matches into
     * results, one per match in match order; [] when Pinecone is unavailable,
     * the embedding is empty or the query raises.
     */
    method SearchDocuments(query: string, topK: nat) returns (documents: seq<SearchResult>)
      modifies mistral, index, clock
      ensures documents == SearchOutcome(pineconeAvailable, mistralAvailable, old(mistral.embedScript), old(index.queryScript))
      ensures var a := IndexEmbedding(pineconeAvailable, mistralAvailable, old(mistral.embedScript));
              var queried := SearchQueries(pineconeAvailable, mistralAvailable, old(mistral.embedScript));
              && mistral.embedScript == Drop(old(mistral.embedScript), a.calls)
              && mistral.embedInputs == old(mistral.embedInputs) + Repeat(query, a.calls)
              && clock.slept == old(clock.slept) + a.sleeps
              && index.queries == old(index.queries) + (if queried then [QueryRequest(EmbeddingOf(a.verdict), topK)] else [])
              && index.queryScript == (if queried then Drop(old(index.queryScript), 1) else old(index.queryScript))
      ensures mistral.chatScript == old(mistral.chatScript) && mistral.chatPrompts == old(mistral.chatPrompts)
      ensures index.upsertScript == old(index.upsertScript) && index.upserts == old(index.upserts)
    {
      if !pineconeAvailable {
        return [];
      }
      var queryEmbedding := GetEmbedding(query);
      if queryEmbedding == [] {
        return [];
      }
      var results := index.Query(queryEmbedding, topK);
      match results {
        case QueryRaised =>
          return [];
        case Matches(ms) =>
          documents := [];
          for i := 0 to |ms|
            invariant |documents| == i
            invariant forall j :: 0 <= j < i ==> documents[j] == ResultOf(ms[j])
            modifies {}
          {
            var m := ms[i];
            documents := documents + [SearchResult(m.id, m.score, MetaGet(m.metadata, "title"),
                                                   MetaGet(m.metadata, "content"), m.metadata)];
          }
          assert documents == Results(ms);
      }
    }

    /**
     * `generate_response`: the retried chat call. Every call sends the same
     * prompt template, empty context or not; the reply is the model's text or
     * one of the four fixed apologies, never an exception.
     */
    method GenerateResponse(query: string, context: string) returns (response: string)
      modifies mistral, clock
      ensures var a := Run(mistralAvailable, old(mistral.chatScript));
              && response == Reply(a.verdict)
              && mistral.chatScript == Drop(old(mistral.chatScript), a.calls)
              && mistral.chatPrompts == old(mistral.chatPrompts) + Repeat(UserPrompt(query, context), a.calls)
              && clock.slept == old(clock.slept) + a.sleeps
      ensures mistral.embedScript == old(mistral.embedScript) && mistral.embedInputs == old(mistral.embedInputs)
    {
      if !mistralAvailable {
        return NoServiceReply;
      }
      ghost var script, prompts0, slept0 := mistral.chatScript, mistral.chatPrompts, clock.slept;
      ghost var embedScript0, inputs0 := mistral.embedScript, mistral.embedInputs;
      var prompt := UserPrompt(query, context);
      var retries: nat := 0;
      var delay: nat := BaseDelay;
      while retries < MaxRetries
        invariant retries < MaxRetries
        invariant delay == BaseDelay * Pow2(retries)
        invariant forall j :: 0 <= j < retries ==> At(script, j) == RateLimited
        invariant mistral.chatScript == Drop(script, retries)
        invariant mistral.chatPrompts == prompts0 + Repeat(prompt, retries)
        invariant clock.slept == slept0 + Schedule(retries)
        invariant mistral.embedScript == embedScript0 && mistral.embedInputs == inputs0
      {
        DropStep(script, retries);
        RepeatSnoc(prompt, retries);
        var outcome := mistral.Chat(prompt);
        if outcome.RateLimited? {
          retries := retries + 1;
          if retries == MaxRetries {
            RetryStopsAt(script, retries - 1);
            return HighDemandReply;
          }
          ScheduleSnoc(retries - 1);
          clock.Sleep(delay);
          delay := delay * 2;
        } else {
          RetryStopsAt(script, retries);
          if outcome.Returned? {
            return outcome.value;
          } else if outcome.StatusError? {
            return StatusErrorReply;
          } else {
            return OtherErrorReply;
          }
        }
      }
    }

    /**
     * The context-building loop of `process_query`: the entries of the
     * results scoring above 0.7, in search order, joined by blank lines; ""
     * when there are no results.
     */
    static method BuildContext(relevantDocs: seq<SearchResult>) returns (context: string)
      ensures context == Context(relevantDocs)
    {
      context := "";
      if relevantDocs != [] {
        var contextParts: seq<string> := [];
        for i := 0 to |relevantDocs|
          invariant contextParts == ContextParts(relevantDocs[..i])
        {
          var doc := relevantDocs[i];
          ContextPartsSnoc(relevantDocs, i);
          if doc.score > RelevanceThreshold {
            contextParts := contextParts + [Entry(doc)];
          }
        }
        assert relevantDocs[..|relevantDocs|] == relevantDocs;
        context := Join(ContextSeparator, contextParts);
      }
    }

    /**
     * `process_query`: search with the default top-k, ground the answer in
     * the results scoring above 0.7, and report every result found, filtered
     * or not, with whether any context was used.
     */
    method ProcessQuery(query: string) returns (result: RagResult)
      modifies mistral, index, clock
      ensures result.relevantDocuments ==
              SearchOutcome(pineconeAvailable, mistralAvailable, old(mistral.embedScript), old(index.queryScript))
      ensures result.contextUsed <==>
              exists i :: 0 <= i < |result.relevantDocuments| && result.relevantDocuments[i].score > RelevanceThreshold
      ensures !pineconeAvailable ==> result.relevantDocuments == [] && !result.contextUsed
      ensures var e := IndexEmbedding(pineconeAvailable, mistralAvailable, old(mistral.embedScript));
              var g := Run(mistralAvailable, old(mistral.chatScript));
              && result.response == Reply(g.verdict)
              && mistral.chatScript == Drop(old(mistral.chatScript), g.calls)
              && mistral.chatPrompts == old(mistral.chatPrompts)
                                         + Repeat(UserPrompt(query, Context(result.relevantDocuments)), g.calls)
              && mistral.embedScript == Drop(old(mistral.embedScript), e.calls)
              && mistral.embedInputs == old(mistral.embedInputs) + Repeat(query, e.calls)
              && clock.slept == old(clock.slept) + e.sleeps + g.sleeps
      ensures var queried := SearchQueries(pineconeAvailable, mistralAvailable, old(mistral.embedScript));
              var e := IndexEmbedding(pineconeAvailable, mistralAvailable, old(mistral.embedScript));
              && index.queries == old(index.queries)
                                  + (if queried then [QueryRequest(EmbeddingOf(e.verdict), DefaultTopK)] else [])
              && index.queryScript == (if queried then Drop(old(index.queryScript), 1) else old(index.queryScript))
      ensures index.upsertScript == old(index.upsertScript) && index.upserts == old(index.upserts)
    {
      ghost var e := IndexEmbedding(pineconeAvailable, mistralAvailable, mistral.embedScript);
      ghost var g := Run(mistralAvailable, mistral.chatScript);
      ghost var prompts0, slept0 := mistral.chatPrompts, clock.slept;
      var relevantDocs := SearchDocuments(query, DefaultTopK);
      ghost var slept1 := clock.slept;
      assert slept1 == slept0 + e.sleeps;
      var context := BuildContext(relevantDocs);
      var response := GenerateResponse(query, context);
      assert response == Reply(g.verdict);
      assert mistral.chatPrompts == prompts0 + Repeat(UserPrompt(query, context), g.calls);
      assert clock.slept == slept1 + g.sleeps;
      ContextUsedIff(relevantDocs);
      result := RagResult(response, relevantDocs, context != "");
    }
  }

  /** The settings `get_rag_service` reads; None stands for a missing setting. */
  datatype Settings = Settings(mistralApiKey: Option<string>, pineconeApiKey: Option<string>)

  /** A setting is usable when it is present and truthy (non-empty). */
  predicate Configured(key: Option<string>)
  {
    key.Some? && key.value != ""
  }

  /** How a construction of RAGService turns out: each provider's setup, and whether it raised. */
  datatype Construction = Construction(mistralReady: bool, pineconeReady: bool, raises: bool)

  /**
   * The module-level `rag_service_instance` and its accessor. All services
   * it builds share the registry's provider oracles.
   */
  class ServiceRegistry {
    var instance: RAGService?
    /** Construction attempts made so far (each one reads the settings). */
    ghost var attempts: nat
    const mistral: MistralClient
    const index: PineconeIndex
    const clock: Clock

    ghost predicate Valid()
      reads this
    {
      instance != null ==> instance.mistral == mistral && instance.index == index && instance.clock == clock
    }

    constructor (mistral: MistralClient, index: PineconeIndex, clock: Clock)
      ensures Valid() && instance == null && attempts == 0
      ensures this.mistral == mistral && this.index == index && this.clock == clock
    {
      instance := null;
      attempts := 0;
      this.mistral := mistral;
      this.index := index;
      this.clock := clock;
    }

    /**
     * What one `get_rag_service` call did to the registry between the state
     * before it and now: a stored service stays; without one, a service is
     * built only when both keys are configured, and stays None when the
     * construction raises.
     */
    twostate predicate Served(settings: Settings, construction: Construction)
      reads this, instance
    {
      if old(instance) != null then
        instance == old(instance) && attempts == old(attempts)
      else if !(Configured(settings.mistralApiKey) && Configured(settings.pineconeApiKey)) then
        instance == null && attempts == old(attempts)
      else
        && attempts == old(attempts) + 1
        && (construction.raises ==> instance == null)
        && (!construction.raises ==>
              && instance != null && fresh(instance)
              && instance.mistralAvailable == construction.mistralReady
              && instance.pineconeAvailable == construction.pineconeReady)
    }

    /**
     * `get_rag_service`: returns the stored instance if there is one, without
     * looking at the settings; otherwise builds one only when both keys are
     * configured. A construction that raises stores nothing, so the next call
     * tries again.
     */
    method GetRagService(settings: Settings, construction: Construction) returns (service: RAGService?)
      requires Valid()
      modifies this
      ensures Valid() && service == instance && Served(settings, construction)
      ensures old(instance) != null ==> service == old(instance) && attempts == old(attempts)
      ensures old(instance) == null && !(Configured(settings.mistralApiKey) && Configured(settings.pineconeApiKey)) ==>
                service == null && attempts == old(attempts)
      ensures old(instance) == null && Configured(settings.mistralApiKey) && Configured(settings.pineconeApiKey) ==>
                && attempts == old(attempts) + 1
                && (construction.raises ==> service == null)
                && (!construction.raises ==>
                      && service != null && fresh(service)
                      && service.mistralAvailable == construction.mistralReady
                      && service.pineconeAvailable == construction.pineconeReady)
    {
      if instance == null {
        if Configured(settings.mistralApiKey) && Configured(settings.pineconeApiKey) {
          attempts := attempts + 1;
          if construction.raises {
            instance := null;
          } else {
            instance := new RAGService(construction.mistralReady, construction.pineconeReady, mistral, index, clock);
          }
        } else {
          instance := null;
        }
      }
      service := instance;
    }
  }
}

=== FILE: text.dfy ===
/**
 * String helpers the application relies on from Python's `str`:
 * whitespace stripping, the 50-character abbreviation used for titles and
 * previews, `sep.join(parts)` and decimal rendering of a natural number.
 */
module Text {

  /** Python's `str.isspace` for one character (the characters `str.strip()` removes). */
  predicate IsSpace(c: char)
  {
    var n := c as int;
    (0x09 <= n <= 0x0D) || (0x1C <= n <= 0x20) || n == 0x85 || n == 0xA0 || n == 0x1680
    || (0x2000 <= n <= 0x200A) || n == 0x2028 || n == 0x2029 || n == 0x202F
    || n == 0x205F || n == 0x3000
  }

  /** `s.lstrip()`: the suffix of `s` left after its leading whitespace. */
  function TrimStart(s: string): (r: string)
    ensures |r| <= |s| && r == s[|s| - |r|..]
    ensures forall i :: 0 <= i < |s| - |r| ==> IsSpace(s[i])
    ensures r != [] ==> !IsSpace(r[0])
  {
    if s != [] && IsSpace(s[0]) then TrimStart(s[1..]) else s
  }

  /** `s.rstrip()`: the prefix of `s` left after its trailing whitespace. */
  function TrimEnd(s: string): (r: string)
    ensures |r| <= |s| && r == s[..|r|]
    ensures forall i :: |r| <= i < |s| ==> IsSpace(s[i])
    ensures r != [] ==> !IsSpace(r[|r| - 1])
  {
    if s != [] && IsSpace(s[|s| - 1]) then TrimEnd(s[..|s| - 1]) else s
  }

  /**
   * `s.strip()`. It is empty exactly when every character of `s` is
   * whitespace; otherwise it starts and ends with a non-whitespace character.
   */
  function Strip(s: string): (r: string)
    ensures |r| <= |s|
    ensures r == [] <==> forall i :: 0 <= i < |s| ==> IsSpace(s[i])
    ensures r != [] ==> !IsSpace(r[0]) && !IsSpace(r[|r| - 1])
  {
    TrimEnd(TrimStart(s))
  }

  /** Number of characters kept by an abbreviation. */
  const PreviewLength: nat := 50

  /** Marker appended to an abbreviated string. */
  const Ellipsis: string := "..."

  /**
   * `s[:50] + ('...' if len(s) > 50 else '')`: short strings are kept as
   * they are; longer ones are cut to 50 characters and marked with "...".
   */
  function Abbreviate(s: string): (r: string)
    ensures |s| <= PreviewLength ==> r == s
    ensures |s| > PreviewLength ==>
              |r| == PreviewLength + |Ellipsis| && r[..PreviewLength] == s[..PreviewLength]
              && r[PreviewLength..] == Ellipsis
    ensures |r| <= PreviewLength + |Ellipsis|
  {
    var kept := if |s| < PreviewLength then |s| else PreviewLength;
    s[..kept] + (if |s| > PreviewLength then Ellipsis else "")
  }

  /** `sep.join(parts)`. */
  function Join(sep: string, parts: seq<string>): (r: string)
    ensures parts == [] ==> r == ""
    ensures parts != [] ==> parts[0] <= r
    ensures parts != [] ==> |r| >= |parts[|parts| - 1]| && r[|r| - |parts[|parts| - 1]|..] == parts[|parts| - 1]
    ensures |parts| >= 2 ==>
              |r| >= |parts[0]| + |sep| + |parts[|parts| - 1]| && r[|parts[0]|..|parts[0]| + |sep|] == sep
  {
    if parts == [] then ""
    else if |parts| == 1 then parts[0]
    else parts[0] + sep + Join(sep, parts[1..])
  }

  /** Joining non-empty parts yields the empty string only when there are no parts. */
  lemma {:induction false} JoinEmptyIff(sep: string, parts: seq<string>)
    requires forall j :: 0 <= j < |parts| ==> parts[j] != ""
    ensures Join(sep, parts) == "" <==> parts == []
  {
    if |parts| > 1 {
      assert |Join(sep, parts)| >= |parts[0]|;
    }
  }

  /** The decimal digit for `d`. */
  function DigitChar(d: nat): (c: char)
    requires d < 10
    ensures '0' <= c <= '9'
  {
    (('0' as int) + d) as char
  }

  /** `str(n)` for a natural number: its decimal digits, most significant first. */
  function NatToString(n: nat): (r: string)
    ensures r != []
    ensures forall i :: 0 <= i < |r| ==> '0' <= r[i] <= '9'
  {
    if n < 10 then [DigitChar(n)] else NatToString(n / 10) + [DigitChar(n % 10)]
  }

  /** The number a string of decimal digits denotes. */
  function DecimalValue(s: string): nat
    requires forall i :: 0 <= i < |s| ==> '0' <= s[i] <= '9'
  {
    if s == [] then 0
    else DecimalValue(s[..|s| - 1]) * 10 + ((s[|s| - 1] as int) - ('0' as int))
  }

  /** Rendering a number and reading the digits back gives the number. */
  lemma {:induction false} NatToStringRoundTrip(n: nat)
    ensures DecimalValue(NatToString(n)) == n
  {
    if n >= 10 {
      var r := NatToString(n);
      NatToStringRoundTrip(n / 10);
      assert r[..|r| - 1] == NatToString(n / 10);
    }
  }
}

=== FILE: views.dfy ===
/**
 * rag/views.py: the chat endpoint and the bulk indexing endpoint. Requests
 * arrive as plain values (a missing field is None, or "" / [] / map[] where
 * the view reads it with a default); the process-wide service comes from a
 * ServiceRegistry, whose provider oracles are the only state these views change.
 */
module Views {
  import opened Wrappers
  import opened Text
  import opened Backoff
  import opened Providers
  import opened RagSpec
  import opened Services

  const MessageRequired := "Message is required"
  const DocumentsRequired := "Documents are required"
  const MockPrefix := "This is a mock response to: "
  const MockSuffix := ". In production, this would use the RAG pipeline with Mistral and Pinecone."
  const UninitializedSuffix := ". RAG service not initialized."
  const GeneratedIdPrefix := "doc_"
  const GeneratedIdSeparator := "_"

  /** The bot message's stored metadata, without the processing time. */
  datatype BotMetadata = BotMetadata(relevantDocsCount: nat, contextUsed: bool)

  /** What `ChatBotView.post` answers. */
  datatype ChatReply =
    | ChatBadRequest(error: string)
    | ChatNotFound
    | ChatAnswer(newSessionTitle: Option<string>, botResponse: string,
                 relevantDocuments: seq<SearchResult>, stored: Option<BotMetadata>)

  /** A message is given when it is present and non-empty. */
  predicate Given(message: Option<string>)
  {
    message.Some? && message.value != ""
  }

  /** A session id selects an existing session only when it is present and non-zero. */
  predicate SelectsSession(sessionId: Option<nat>)
  {
    sessionId.Some? && sessionId.value != 0
  }

  /** Whether any search result would have been used as context. */
  predicate AnyRelevant(docs: seq<SearchResult>)
  {
    exists i :: 0 <= i < |docs| && docs[i].score > RelevanceThreshold
  }

  /** The bot's side of an answer: its reply, the documents it reports, and what is stored with it. */
  datatype BotTurn = BotTurn(botResponse: string, relevantDocuments: seq<SearchResult>, stored: Option<BotMetadata>)

  /**
   * `ChatBotView.post`. `ownSessions` are the ids of the requesting user's
   * sessions (a selected id outside it is a 404). A request that passes both
   * checks gets the bot's turn, and a new session titled after the message
   * when none was selected.
   */
  method ChatBot(registry: ServiceRegistry, settings: Settings, construction: Construction,
                 message: Option<string>, sessionId: Option<nat>, ownSessions: set<nat>)
    returns (reply: ChatReply)
    requires registry.Valid()
    modifies registry, registry.mistral, registry.index, registry.clock
    ensures registry.Valid()
    ensures reply.ChatBadRequest? <==> !Given(message)
    ensures reply.ChatBadRequest? ==> reply.error == MessageRequired
    ensures reply.ChatNotFound? <==>
              Given(message) && SelectsSession(sessionId) && sessionId.value !in ownSessions
    ensures !reply.ChatAnswer? ==> unchanged(registry, registry.mistral, registry.index, registry.clock)
    ensures reply.ChatAnswer? ==>
              reply.newSessionTitle == if SelectsSession(sessionId) then None else Some(Abbreviate(message.value))
    ensures reply.ChatAnswer? ==>
              AnswerFollows(settings, message.value, registry.instance, old(registry.mistral.embedScript),
                            old(registry.index.queryScript), old(registry.mistral.chatScript),
                            BotTurn(reply.botResponse, reply.relevantDocuments, reply.stored))
    ensures reply.ChatAnswer? && !(Configured(settings.mistralApiKey) && Configured(settings.pineconeApiKey)) ==>
              unchanged(registry, registry.mistral, registry.index, registry.clock)
    ensures reply.ChatAnswer? && Configured(settings.mistralApiKey) && Configured(settings.pineconeApiKey) ==>
              registry.Served(settings, construction)
    ensures reply.ChatAnswer? && Configured(settings.mistralApiKey) && Configured(settings.pineconeApiKey)
            && registry.instance != null ==>
              var e := IndexEmbedding(registry.instance.pineconeAvailable, registry.instance.mistralAvailable,
                                      old(registry.mistral.embedScript));
              var g := Run(registry.instance.mistralAvailable, old(registry.mistral.chatScript));
              && registry.mistral.embedInputs == old(registry.mistral.embedInputs) + Repeat(message.value, e.calls)
              && registry.mistral.chatPrompts == old(registry.mistral.chatPrompts)
                                                 + Repeat(UserPrompt(message.value, Context(reply.relevantDocuments)), g.calls)
  {
    if !Given(message) {
      return ChatBadRequest(MessageRequired);
    }
    var userMessage := message.value;
    var title: Option<string> := None;
    if SelectsSession(sessionId) {
      if sessionId.value !in ownSessions {
        return ChatNotFound;
      }
    } else {
      title := Some(Abbreviate(userMessage));
    }
    var turn := BotReply(registry, settings, construction, userMessage);
    reply := ChatAnswer(title, turn.botResponse, turn.relevantDocuments, turn.stored);
  }

  /**
   * The bot's turn for `userMessage`, given the settings, the service the
   * registry holds once the request is served, and the provider scripts as
   * they were before it: without both keys, the mock reply with metadata
   * (0, false); with both keys but no service, the "not initialized" reply
   * with nothing stored; otherwise the search results and the reply for the
   * generation's verdict, stored with their count and whether any scored
   * above 0.7.
   */
  ghost predicate AnswerFollows(settings: Settings, userMessage: string, svc: RAGService?,
                                embedScript: seq<CallOutcome<Embedding>>, queryScript: seq<QueryOutcome>,
                                chatScript: seq<CallOutcome<string>>, turn: BotTurn): (r: bool)
    reads svc
    ensures r ==> (turn.stored == None <==>
                     Configured(settings.mistralApiKey) && Configured(settings.pineconeApiKey) && svc == null)
    ensures r && turn.stored.Some? ==>
              && turn.stored.value.relevantDocsCount == |turn.relevantDocuments|
              && (turn.stored.value.contextUsed <==> AnyRelevant(turn.relevantDocuments))
    ensures r && turn.relevantDocuments != [] ==> svc != null && svc.pineconeAvailable && svc.mistralAvailable
  {
    if !(Configured(settings.mistralApiKey) && Configured(settings.pineconeApiKey)) then
      turn == BotTurn(MockPrefix + userMessage + MockSuffix, [], Some(BotMetadata(0, false)))
    else if svc == null then
      turn == BotTurn(MockPrefix + userMessage + UninitializedSuffix, [], None)
    else
      var g := Run(svc.mistralAvailable, chatScript);
      && turn.relevantDocuments == SearchOutcome(svc.pineconeAvailable, svc.mistralAvailable, embedScript, queryScript)
      && turn.botResponse == Reply(g.verdict)
      && turn.stored == Some(BotMetadata(|turn.relevantDocuments|, AnyRelevant(turn.relevantDocuments)))
  }

  /** The bot's turn is determined by the settings, the message, the service and the scripts. */
  lemma AnswerFollowsUnique(settings: Settings, userMessage: string, svc: RAGService?,
                            embedScript: seq<CallOutcome<Embedding>>, queryScript: seq<QueryOutcome>,
                            chatScript: seq<CallOutcome<string>>, turn: BotTurn, other: BotTurn)
    requires AnswerFollows(settings, userMessage, svc, embedScript, queryScript, chatScript, turn)
    requires AnswerFollows(settings, userMessage, svc, embedScript, queryScript, chatScript, other)
    ensures turn == other
  {
  }

  /**
   * The answering part of `ChatBotView.post`. With both keys configured the
   * answer is the service's `process_query` result; without them, or when no
   * service could be built, it is one of the two mock replies.
   */
  method BotReply(registry: ServiceRegistry, settings: Settings, construction: Construction, userMessage: string)
    returns (turn: BotTurn)
    requires registry.Valid()
    modifies registry, registry.mistral, registry.index, registry.clock
    ensures registry.Valid()
    ensures AnswerFollows(settings, userMessage, registry.instance, old(registry.mistral.embedScript),
                          old(registry.index.queryScript), old(registry.mistral.chatScript), turn)
    ensures !(Configured(settings.mistralApiKey) && Configured(settings.pineconeApiKey)) ==>
              unchanged(registry, registry.mistral, registry.index, registry.clock)
    ensures Configured(settings.mistralApiKey) && Configured(settings.pineconeApiKey) ==>
              registry.Served(settings, construction)
    ensures Configured(settings.mistralApiKey) && Configured(settings.pineconeApiKey) && registry.instance == null ==>
              unchanged(registry.mistral, registry.index, registry.clock)
    ensures Configured(settings.mistralApiKey) && Configured(settings.pineconeApiKey) && registry.instance != null ==>
              var e := IndexEmbedding(registry.instance.pineconeAvailable, registry.instance.mistralAvailable,
                                      old(registry.mistral.embedScript));
              var g := Run(registry.instance.mistralAvailable, old(registry.mistral.chatScript));
              && registry.mistral.embedInputs == old(registry.mistral.embedInputs) + Repeat(userMessage, e.calls)
              && registry.mistral.chatPrompts == old(registry.mistral.chatPrompts)
                                                 + Repeat(UserPrompt(userMessage, Context(turn.relevantDocuments)), g.calls)
  {
    if Configured(settings.mistralApiKey) && Configured(settings.pineconeApiKey) {
      var service := registry.GetRagService(settings, construction);
      if service == null {
        // Nothing is stored for the bot in this branch.
        return BotTurn(MockPrefix + userMessage + UninitializedSuffix, [], None);
      }
      var ragResult := service.ProcessQuery(userMessage);
      var metadata := BotMetadata(|ragResult.relevantDocuments|, ragResult.contextUsed);
      turn := BotTurn(ragResult.response, ragResult.relevantDocuments, Some(metadata));
    } else {
      turn := BotTurn(MockPrefix + userMessage + MockSuffix, [], Some(BotMetadata(0, false)));
    }
  }

  /** One entry of the `documents` list; "" and map[] stand for a missing or falsy field. */
  datatype DocInput = DocInput(id: string, title: string, content: string, metadata: Metadata)

  /** What `DocumentIndexView.post` answers. */
  datatype IndexReply = IndexBadRequest(error: string) | Indexed(count: nat)

  /** Only documents with both a title and a content are sent to the index. */
  predicate Eligible(doc: DocInput)
  {
    doc.title != "" && doc.content != ""
  }

  /** The positions of the eligible documents, in list order. */
  function EligibleIndices(docs: seq<DocInput>): (r: seq<nat>)
    ensures |r| <= |docs|
    ensures forall k :: 0 <= k < |r| ==> r[k] < |docs| && Eligible(docs[r[k]])
    ensures forall k, l :: 0 <= k < l < |r| ==> r[k] < r[l]
  {
    if docs == [] then []
    else
      var n := |docs| - 1;
      var rest := EligibleIndices(docs[..n]);
      if Eligible(docs[n]) then rest + [n] else rest
  }

  /** No eligible document is skipped. */
  lemma {:induction false} EligibleIndicesComplete(docs: seq<DocInput>, i: nat)
    requires i < |docs| && Eligible(docs[i])
    ensures i in EligibleIndices(docs)
    decreases |docs|
  {
    var n := |docs| - 1;
    if i < n {
      EligibleIndicesComplete(docs[..n], i);
    }
  }

  /** Scanning one more document adds its position exactly when it is eligible. */
  lemma EligibleIndicesSnoc(docs: seq<DocInput>, i: nat)
    requires i < |docs|
    ensures EligibleIndices(docs[..i + 1]) ==
            EligibleIndices(docs[..i]) + (if Eligible(docs[i]) then [i] else [])
  {
    assert docs[..i + 1][..i] == docs[..i];
  }

  /** How many of the outcomes were successes. */
  function CountTrue(bs: seq<bool>): (r: nat)
    ensures r <= |bs|
  {
    if bs == [] then 0
    else CountTrue(bs[..|bs| - 1]) + (if bs[|bs| - 1] then 1 else 0)
  }

  /** No success gives 0, and only all successes give the number of calls. */
  lemma {:induction false} CountTrueExtremes(bs: seq<bool>)
    ensures CountTrue(bs) == 0 <==> forall k :: 0 <= k < |bs| ==> !bs[k]
    ensures CountTrue(bs) == |bs| <==> forall k :: 0 <= k < |bs| ==> bs[k]
  {
    if bs != [] {
      var n := |bs| - 1;
      CountTrueExtremes(bs[..n]);
      assert forall k :: 0 <= k < n ==> bs[..n][k] == bs[k];
    }
  }

  lemma CountTrueSnoc(bs: seq<bool>, b: bool)
    ensures CountTrue(bs + [b]) == CountTrue(bs) + (if b then 1 else 0)
  {
    assert (bs + [b])[..|bs|] == bs;
  }

  /** The id used for a document: its own, or one made from the clock and the running count. */
  function DocId(doc: DocInput, stamp: nat, indexedSoFar: nat): (id: string)
    ensures doc.id != "" ==> id == doc.id
    ensures doc.id == "" ==>
              && |id| > |GeneratedIdPrefix|
              && id[..|GeneratedIdPrefix|] == GeneratedIdPrefix
              && id[|GeneratedIdPrefix|..] ==
                 NatToString(stamp) + GeneratedIdSeparator + NatToString(indexedSoFar)
  {
    if doc.id != "" then doc.id
    else GeneratedIdPrefix + NatToString(stamp) + GeneratedIdSeparator + NatToString(indexedSoFar)
  }

  /**
   * The call log of the indexing loop: one id and one outcome per attempted
   * position, each id made from the count of successes before it.
   */
  ghost predicate IdsLogged(documents: seq<DocInput>, stamp: nat -> nat,
                            attempted: seq<nat>, ids: seq<string>, accepted: seq<bool>)
  {
    && |ids| == |attempted| && |accepted| == |attempted|
    && (forall k :: 0 <= k < |attempted| ==> attempted[k] < |documents|)
    && (forall k :: 0 <= k < |attempted| ==>
          ids[k] == DocId(documents[attempted[k]], stamp(attempted[k]), CountTrue(accepted[..k])))
  }

  /** Logging one more call, with the id made from the current count, keeps the log well formed. */
  lemma IdsLoggedSnoc(documents: seq<DocInput>, stamp: nat -> nat,
                      attempted: seq<nat>, ids: seq<string>, accepted: seq<bool>, i: nat, success: bool)
    requires IdsLogged(documents, stamp, attempted, ids, accepted)
    requires i < |documents|
    ensures IdsLogged(documents, stamp, attempted + [i],
                      ids + [DocId(documents[i], stamp(i), CountTrue(accepted))], accepted + [success])
  {
    var accepted' := accepted + [success];
    forall k | 0 <= k <= |accepted|
      ensures accepted'[..k] == accepted[..k]
    {
    }
  }

  /**
   * `DocumentIndexView.post`. `stamp(i)` is the whole-second clock reading
   * taken while the i-th document is visited. The ghost results log the calls
   * to `add_document`: the document positions, their ids and their outcomes.
   */
  method IndexDocuments(registry: ServiceRegistry, settings: Settings, construction: Construction,
                        documents: seq<DocInput>, stamp: nat -> nat)
    returns (reply: IndexReply, ghost attempted: seq<nat>, ghost ids: seq<string>,
             ghost accepted: seq<bool>, ghost issued: seq<bool>)
    requires registry.Valid()
    modifies registry, registry.mistral, registry.index, registry.clock
    ensures registry.Valid()
    ensures documents == [] <==> reply.IndexBadRequest?
    ensures reply.IndexBadRequest? ==>
              reply.error == DocumentsRequired && attempted == []
              && unchanged(registry, registry.mistral, registry.index, registry.clock)
    ensures documents != [] && !Configured(settings.pineconeApiKey) ==>
              reply == Indexed(|documents|) && attempted == []
              && unchanged(registry, registry.mistral, registry.index, registry.clock)
    ensures documents != [] && Configured(settings.pineconeApiKey) ==> registry.Served(settings, construction)
    ensures && registry.mistral.chatScript == old(registry.mistral.chatScript)
            && registry.mistral.chatPrompts == old(registry.mistral.chatPrompts)
            && registry.index.queryScript == old(registry.index.queryScript)
            && registry.index.queries == old(registry.index.queries)
    ensures documents != [] && Configured(settings.pineconeApiKey) && registry.instance == null ==>
              reply == Indexed(0) && attempted == []
              && unchanged(registry.mistral, registry.index, registry.clock)
    ensures documents != [] && Configured(settings.pineconeApiKey) && registry.instance != null ==>
              && reply.Indexed?
              && Pass(StateOf(registry.mistral, registry.index, registry.clock), attempted, ids, accepted, issued, reply.count)
                 == IndexPass(registry.instance.pineconeAvailable, registry.instance.mistralAvailable,
                              old(StateOf(registry.mistral, registry.index, registry.clock)), documents, stamp, |documents|)
              && IndexedAll(registry.instance.pineconeAvailable, registry.instance.mistralAvailable,
                            old(StateOf(registry.mistral, registry.index, registry.clock)), documents, stamp,
                            Pass(StateOf(registry.mistral, registry.index, registry.clock), attempted, ids, accepted, issued, reply.count))
  {
    attempted, ids, accepted, issued := [], [], [], [];
    if documents == [] {
      return IndexBadRequest(DocumentsRequired), attempted, ids, accepted, issued;
    }
    if !Configured(settings.pineconeApiKey) {
      return Indexed(|documents|), attempted, ids, accepted, issued;
    }
    var service := registry.GetRagService(settings, construction);
    var indexedCount: nat := 0;
    if service != null {
      ghost var start := StateOf(registry.mistral, registry.index, registry.clock);
      indexedCount, attempted, ids, accepted, issued := IndexEach(service, documents, stamp);
      IndexPassAll(service.pineconeAvailable, service.mistralAvailable, start, documents, stamp);
    }
    reply := Indexed(indexedCount);
  }

  /**
   * The `add_document` call of one loop iteration, handed its own copy of the
   * document's metadata. It embeds the content as `IndexEmbedding` says. When
   * that gives no embedding it fails without an upsert; otherwise it upserts
   * the document under `docId` and reports the index's next scripted outcome.
   */
  method AddOne(service: RAGService, docId: string, doc: DocInput) returns (success: bool)
    modifies service.mistral, service.index, service.clock
    ensures service.mistral.chatScript == old(service.mistral.chatScript)
            && service.mistral.chatPrompts == old(service.mistral.chatPrompts)
    ensures service.index.queryScript == old(service.index.queryScript) && service.index.queries == old(service.index.queries)
    ensures var a := IndexEmbedding(service.pineconeAvailable, service.mistralAvailable, old(service.mistral.embedScript));
            && service.mistral.embedScript == Drop(old(service.mistral.embedScript), a.calls)
            && service.mistral.embedInputs == old(service.mistral.embedInputs) + Repeat(doc.content, a.calls)
            && service.clock.slept == old(service.clock.slept) + a.sleeps
    ensures var e := EmbeddingOf(IndexEmbedding(service.pineconeAvailable, service.mistralAvailable,
                                                old(service.mistral.embedScript)).verdict);
            if e == [] then
              && !success
              && service.index.upserts == old(service.index.upserts)
              && service.index.upsertScript == old(service.index.upsertScript)
            else
              && service.index.upserts ==
                   old(service.index.upserts) + [Vector(docId, e, Merged(doc.metadata, doc.title, doc.content, docId))]
              && service.index.upsertScript == Drop(old(service.index.upsertScript), 1)
              && success == Granted(old(service.index.upsertScript), 0)
  {
    var metadata := new MetaDict(doc.metadata);
    success := service.AddDocument(docId, doc.title, doc.content, metadata);
  }

  /** Whether the index accepts the `i`-th upsert of its script; an exhausted script raises, which is a failure. */
  predicate Granted(script: seq<bool>, i: nat)
  {
    i < |script| && script[i]
  }

  /** How many of the first `n` upserts of the script the index accepts. */
  function GrantedCount(script: seq<bool>, n: nat): (r: nat)
    ensures r <= n
  {
    if n == 0 then 0 else GrantedCount(script, n - 1) + (if Granted(script, n - 1) then 1 else 0)
  }

  /**
   * The outcome each call must have, given which calls issued an upsert: a
   * call without one fails, and the others get the index's scripted answers
   * in order.
   */
  function Outcomes(script0: seq<bool>, issued: seq<bool>): (r: seq<bool>)
    ensures |r| == |issued|
  {
    if issued == [] then []
    else
      var n := |issued| - 1;
      Outcomes(script0, issued[..n]) + [issued[n] && Granted(script0, CountTrue(issued[..n]))]
  }

  /** The successes are exactly the accepted upserts among those issued. */
  lemma {:induction false} OutcomesCount(script0: seq<bool>, issued: seq<bool>)
    ensures CountTrue(Outcomes(script0, issued)) == GrantedCount(script0, CountTrue(issued))
  {
    if issued != [] {
      var n := |issued| - 1;
      OutcomesCount(script0, issued[..n]);
      assert issued == issued[..n] + [issued[n]];
      OutcomesCountSnoc(script0, issued[..n], issued[n]);
    }
  }

  /** The count stays the number of accepted upserts when one more call is logged. */
  lemma OutcomesCountSnoc(script0: seq<bool>, prefix: seq<bool>, did: bool)
    requires CountTrue(Outcomes(script0, prefix)) == GrantedCount(script0, CountTrue(prefix))
    ensures CountTrue(Outcomes(script0, prefix + [did])) == GrantedCount(script0, CountTrue(prefix + [did]))
  {
    var last := did && Granted(script0, CountTrue(prefix));
    OutcomesSnoc(script0, prefix, did);
    CountTrueSnoc(Outcomes(script0, prefix), last);
    CountTrueSnoc(prefix, did);
    GrantedCountLast(script0, CountTrue(prefix), did);
  }

  /** One more call appends its outcome. */
  lemma OutcomesSnoc(script0: seq<bool>, issued: seq<bool>, did: bool)
    ensures Outcomes(script0, issued + [did]) ==
            Outcomes(script0, issued) + [did && Granted(script0, CountTrue(issued))]
  {
    assert (issued + [did])[..|issued|] == issued;
  }

  /** One more call adds the index's answer to the count when it issued an upsert, and nothing otherwise. */
  lemma GrantedCountLast(script0: seq<bool>, c: nat, did: bool)
    ensures GrantedCount(script0, c + (if did then 1 else 0)) ==
            GrantedCount(script0, c) + (if did && Granted(script0, c) then 1 else 0)
  {
  }

  /** The ids of the calls that issued an upsert, in call order. */
  function IssuedIds(issued: seq<bool>, ids: seq<string>): (r: seq<string>)
    requires |ids| == |issued|
    ensures |r| == CountTrue(issued)
  {
    if issued == [] then []
    else
      var n := |issued| - 1;
      IssuedIds(issued[..n], ids[..n]) + (if issued[n] then [ids[n]] else [])
  }

  /** The ids the vectors were upserted under. */
  function IdsOf(vs: seq<Vector>): (r: seq<string>)
    ensures |r| == |vs|
  {
    if vs == [] then [] else IdsOf(vs[..|vs| - 1]) + [vs[|vs| - 1].id]
  }

  /**
   * The index's side of the call log. Starting from `upserts0` and the upsert
   * script `script0`, call k issued an upsert exactly when `issued[k]`: the
   * upserts issued are appended in call order under the ids of their calls,
   * each took the next scripted answer, and the calls' outcomes are `Outcomes`.
   */
  ghost predicate Upserted(upserts0: seq<Vector>, script0: seq<bool>,
                           issued: seq<bool>, ids: seq<string>, accepted: seq<bool>,
                           upserts: seq<Vector>, script: seq<bool>)
  {
    && |ids| == |issued|
    && |upserts0| <= |upserts| && upserts[..|upserts0|] == upserts0
    && IdsOf(upserts[|upserts0|..]) == IssuedIds(issued, ids)
    && script == Drop(script0, CountTrue(issued))
    && accepted == Outcomes(script0, issued)
  }

  /** One more call, which either issued one upsert and took the next answer, or issued none and failed. */
  lemma UpsertedStep(upserts0: seq<Vector>, script0: seq<bool>,
                     issued: seq<bool>, ids: seq<string>, accepted: seq<bool>,
                     upserts: seq<Vector>, script: seq<bool>,
                     did: bool, id: string, success: bool, upserts': seq<Vector>, script': seq<bool>)
    requires Upserted(upserts0, script0, issued, ids, accepted, upserts, script)
    requires did ==>
               && |upserts'| == |upserts| + 1 && upserts'[..|upserts|] == upserts && upserts'[|upserts|].id == id
               && script' == Drop(script, 1) && success == Granted(script, 0)
    requires !did ==> upserts' == upserts && script' == script && !success
    ensures Upserted(upserts0, script0, issued + [did], ids + [id], accepted + [success], upserts', script')
  {
    var issued', ids' := issued + [did], ids + [id];
    var c := CountTrue(issued);
    assert issued'[..|issued|] == issued;
    assert ids'[..|ids|] == ids;
    CountTrueSnoc(issued, did);
    if did {
      assert Granted(script, 0) == Granted(script0, c);
      assert Drop(script, 1) == Drop(script0, c + 1);
      var added := upserts'[|upserts0|..];
      assert upserts'[..|upserts0|] == upserts[..|upserts0|];
      assert added[..|added| - 1] == upserts[|upserts0|..];
    }
  }

  /** The number of successful calls is the number of upserts the index accepted. */
  lemma UpsertedCount(upserts0: seq<Vector>, script0: seq<bool>,
                      issued: seq<bool>, ids: seq<string>, accepted: seq<bool>,
                      upserts: seq<Vector>, script: seq<bool>)
    requires Upserted(upserts0, script0, issued, ids, accepted, upserts, script)
    ensures CountTrue(accepted) == GrantedCount(script0, |upserts| - |upserts0|)
  {
    OutcomesCount(script0, issued);
  }

  /** The embedding side of the indexing loop so far. */
  datatype EmbedLog = EmbedLog(issued: seq<bool>, rest: seq<CallOutcome<Embedding>>,
                               inputs: seq<string>, sleeps: seq<nat>)

  /**
   * What the embedding calls of the indexing loop do over `docs`, starting
   * from the embedding script `script`: each eligible document in turn is
   * embedded as `IndexEmbedding` says from what is left of the script, its
   * content is sent once per call, and its sleeps are taken. `issued` records,
   * per eligible document, whether its embedding was non-empty, which is when
   * `add_document` goes on to upsert it.
   */
  function EmbedPass(pineconeAvailable: bool, mistralAvailable: bool,
                     script: seq<CallOutcome<Embedding>>, docs: seq<DocInput>): (log: EmbedLog)
    ensures |log.issued| <= |docs|
    ensures |log.inputs| <= MaxRetries * |log.issued|
    ensures !pineconeAvailable || !mistralAvailable ==> log.rest == script && log.inputs == [] && log.sleeps == []
  {
    if docs == [] then EmbedLog([], script, [], [])
    else
      var n := |docs| - 1;
      var log := EmbedPass(pineconeAvailable, mistralAvailable, script, docs[..n]);
      if !Eligible(docs[n]) then log
      else
        var a := IndexEmbedding(pineconeAvailable, mistralAvailable, log.rest);
        EmbedLog(log.issued + [EmbeddingOf(a.verdict) != []], Drop(log.rest, a.calls),
                 log.inputs + Repeat(docs[n].content, a.calls), log.sleeps + a.sleeps)
  }

  /**
   * The embedding state after the first `i` documents: the issued flags, the
   * script left, the inputs sent and the sleeps taken are those of `EmbedPass`.
   */
  ghost predicate Embedded(pineconeAvailable: bool, mistralAvailable: bool, script0: seq<CallOutcome<Embedding>>,
                           inputs0: seq<string>, slept0: seq<nat>, docs: seq<DocInput>,
                           issued: seq<bool>, script: seq<CallOutcome<Embedding>>,
                           inputs: seq<string>, slept: seq<nat>)
  {
    var log := EmbedPass(pineconeAvailable, mistralAvailable, script0, docs);
    && issued == log.issued && script == log.rest
    && inputs == inputs0 + log.inputs && slept == slept0 + log.sleeps
  }

  /** Visiting an ineligible document makes no embedding call. */
  lemma EmbeddedSkip(pineconeAvailable: bool, mistralAvailable: bool, script0: seq<CallOutcome<Embedding>>,
                     inputs0: seq<string>, slept0: seq<nat>, documents: seq<DocInput>, i: nat,
                     issued: seq<bool>, script: seq<CallOutcome<Embedding>>, inputs: seq<string>, slept: seq<nat>)
    requires i < |documents| && !Eligible(documents[i])
    requires Embedded(pineconeAvailable, mistralAvailable, script0, inputs0, slept0, documents[..i],
                      issued, script, inputs, slept)
    ensures Embedded(pineconeAvailable, mistralAvailable, script0, inputs0, slept0, documents[..i + 1],
                     issued, script, inputs, slept)
  {
    assert documents[..i + 1][..i] == documents[..i];
  }

  /** Visiting an eligible document takes one embedding operation from what is left of the script. */
  lemma EmbeddedAdd(pineconeAvailable: bool, mistralAvailable: bool, script0: seq<CallOutcome<Embedding>>,
                    inputs0: seq<string>, slept0: seq<nat>, documents: seq<DocInput>, i: nat,
                    issued: seq<bool>, script: seq<CallOutcome<Embedding>>, inputs: seq<string>, slept: seq<nat>)
    requires i < |documents| && Eligible(documents[i])
    requires Embedded(pineconeAvailable, mistralAvailable, script0, inputs0, slept0, documents[..i],
                      issued, script, inputs, slept)
    ensures var a := IndexEmbedding(pineconeAvailable, mistralAvailable, script);
            Embedded(pineconeAvailable, mistralAvailable, script0, inputs0, slept0, documents[..i + 1],
                     issued + [EmbeddingOf(a.verdict) != []], Drop(script, a.calls),
                     inputs + Repeat(documents[i].content, a.calls), slept + a.sleeps)
  {
    var log := EmbedPass(pineconeAvailable, mistralAvailable, script0, documents[..i]);
    var a := IndexEmbedding(pineconeAvailable, mistralAvailable, script);
    var more := Repeat(documents[i].content, a.calls);
    assert documents[..i + 1][..i] == documents[..i];
    assert EmbedPass(pineconeAvailable, mistralAvailable, script0, documents[..i + 1]) ==
           EmbedLog(log.issued + [EmbeddingOf(a.verdict) != []], Drop(log.rest, a.calls),
                    log.inputs + more, log.sleeps + a.sleeps);
    ConcatAssoc(inputs0, log.inputs, more);
    ConcatAssoc(slept0, log.sleeps, a.sleeps);
  }

  lemma ConcatAssoc<T>(x: seq<T>, y: seq<T>, z: seq<T>)
    ensures x + y + z == x + (y + z)
  {
  }

  /** After the last document, the state is `EmbedPass` of the whole list. */
  lemma EmbeddedAll(pineconeAvailable: bool, mistralAvailable: bool, script0: seq<CallOutcome<Embedding>>,
                    inputs0: seq<string>, slept0: seq<nat>, documents: seq<DocInput>,
                    issued: seq<bool>, script: seq<CallOutcome<Embedding>>, inputs: seq<string>, slept: seq<nat>)
    requires Embedded(pineconeAvailable, mistralAvailable, script0, inputs0, slept0, documents[..|documents|],
                      issued, script, inputs, slept)
    ensures Embedded(pineconeAvailable, mistralAvailable, script0, inputs0, slept0, documents,
                     issued, script, inputs, slept)
  {
    assert documents[..|documents|] == documents;
  }

  /**
   * What the indexing loop has done after visiting the first `i` documents:
   * called `add_document` for exactly the eligible ones, logged each call's id
   * and outcome, and counted the successes.
   */
  ghost predicate Scanned(documents: seq<DocInput>, stamp: nat -> nat, i: nat,
                          attempted: seq<nat>, ids: seq<string>, accepted: seq<bool>, count: nat)
  {
    && i <= |documents|
    && attempted == EligibleIndices(documents[..i])
    && IdsLogged(documents, stamp, attempted, ids, accepted)
    && count == CountTrue(accepted)
  }

  /** Visiting an ineligible document changes nothing. */
  lemma ScannedSkip(documents: seq<DocInput>, stamp: nat -> nat, i: nat,
                    attempted: seq<nat>, ids: seq<string>, accepted: seq<bool>, count: nat)
    requires Scanned(documents, stamp, i, attempted, ids, accepted, count)
    requires i < |documents| && !Eligible(documents[i])
    ensures Scanned(documents, stamp, i + 1, attempted, ids, accepted, count)
  {
    EligibleIndicesSnoc(documents, i);
  }

  /** Visiting an eligible document logs one call and counts it if it succeeded. */
  lemma ScannedAdd(documents: seq<DocInput>, stamp: nat -> nat, i: nat,
                   attempted: seq<nat>, ids: seq<string>, accepted: seq<bool>, count: nat, success: bool)
    requires Scanned(documents, stamp, i, attempted, ids, accepted, count)
    requires i < |documents| && Eligible(documents[i])
    ensures Scanned(documents, stamp, i + 1, attempted + [i],
                    ids + [DocId(documents[i], stamp(i), count)], accepted + [success],
                    count + (if success then 1 else 0))
  {
    EligibleIndicesSnoc(documents, i);
    CountTrueSnoc(accepted, success);
    IdsLoggedSnoc(documents, stamp, attempted, ids, accepted, i, success);
  }

  /** Having visited every document, the calls were made for exactly the eligible ones. */
  lemma ScannedAll(documents: seq<DocInput>, stamp: nat -> nat,
                   attempted: seq<nat>, ids: seq<string>, accepted: seq<bool>, count: nat)
    requires Scanned(documents, stamp, |documents|, attempted, ids, accepted, count)
    ensures attempted == EligibleIndices(documents)
    ensures count <= |attempted| <= |documents|
  {
    assert documents[..|documents|] == documents;
  }

  /** The provider state the indexing loop changes. */
  datatype Oracles = Oracles(embedScript: seq<CallOutcome<Embedding>>, embedInputs: seq<string>, slept: seq<nat>,
                             upserts: seq<Vector>, upsertScript: seq<bool>)

  ghost function StateOf(mistral: MistralClient, index: PineconeIndex, clock: Clock): Oracles
    reads mistral, index, clock
  {
    Oracles(mistral.embedScript, mistral.embedInputs, clock.slept, index.upserts, index.upsertScript)
  }


  /** The indexing loop's state: the provider state, the ghost call log and the count. */
  datatype Pass = Pass(oracles: Oracles, attempted: seq<nat>, ids: seq<string>,
                       accepted: seq<bool>, issued: seq<bool>, count: nat)

  /**
   * One `add_document` call on the provider state `now`, as `AddOne` performs
   * it: the new provider state and the call's outcome.
   */
  function AddEffect(pineconeAvailable: bool, mistralAvailable: bool, now: Oracles,
                     docId: string, doc: DocInput): (r: (Oracles, bool))
    ensures !pineconeAvailable || !mistralAvailable ==> r == (now, false)
    ensures now.upserts <= r.0.upserts && |r.0.upserts| <= |now.upserts| + 1
    ensures r.1 ==> |r.0.upserts| == |now.upserts| + 1 && now.upsertScript != [] && now.upsertScript[0]
    ensures |r.0.embedInputs| - |now.embedInputs| <= MaxRetries
  {
    var a := IndexEmbedding(pineconeAvailable, mistralAvailable, now.embedScript);
    var e := EmbeddingOf(a.verdict);
    var embedded := now.(embedScript := Drop(now.embedScript, a.calls),
                         embedInputs := now.embedInputs + Repeat(doc.content, a.calls),
                         slept := now.slept + a.sleeps);
    assert a.calls == 0 ==> embedded == now by {
      assert a.calls == 0 ==> Repeat(doc.content, a.calls) == [];
    }
    if e == [] then (embedded, false)
    else
      (embedded.(upserts := now.upserts + [Vector(docId, e, Merged(doc.metadata, doc.title, doc.content, docId))],
                 upsertScript := Drop(now.upsertScript, 1)),
       Granted(now.upsertScript, 0))
  }

  /** The loop's visit of the `i`-th document from the state `p`. */
  function Visit(pineconeAvailable: bool, mistralAvailable: bool, documents: seq<DocInput>, stamp: nat -> nat,
                 i: nat, p: Pass): (q: Pass)
    requires i < |documents|
  {
    if !Eligible(documents[i]) then p
    else
      var docId := DocId(documents[i], stamp(i), p.count);
      var r := AddEffect(pineconeAvailable, mistralAvailable, p.oracles, docId, documents[i]);
      var a := IndexEmbedding(pineconeAvailable, mistralAvailable, p.oracles.embedScript);
      Pass(r.0, p.attempted + [i], p.ids + [docId], p.accepted + [r.1],
           p.issued + [EmbeddingOf(a.verdict) != []], p.count + (if r.1 then 1 else 0))
  }

  /** The indexing loop, from the provider state `start`, after its first `i` visits. */
  function IndexPass(pineconeAvailable: bool, mistralAvailable: bool, start: Oracles,
                     documents: seq<DocInput>, stamp: nat -> nat, i: nat): (p: Pass)
    requires i <= |documents|
  {
    if i == 0 then Pass(start, [], [], [], [], 0)
    else Visit(pineconeAvailable, mistralAvailable, documents, stamp, i - 1,
               IndexPass(pineconeAvailable, mistralAvailable, start, documents, stamp, i - 1))
  }

  /**
   * A visit to an ineligible document changes nothing; one to an eligible
   * document logs one call at its position, and counts it exactly when the
   * call succeeded.
   */
  lemma VisitShape(pineconeAvailable: bool, mistralAvailable: bool, documents: seq<DocInput>, stamp: nat -> nat,
                   i: nat, p: Pass)
    requires i < |documents|
    ensures var q := Visit(pineconeAvailable, mistralAvailable, documents, stamp, i, p);
            && (!Eligible(documents[i]) ==> q == p)
            && (Eligible(documents[i]) ==>
                  && q.attempted == p.attempted + [i]
                  && q.ids == p.ids + [DocId(documents[i], stamp(i), p.count)]
                  && |q.accepted| == |p.accepted| + 1 && |q.issued| == |p.issued| + 1
                  && q.count == p.count + (if q.accepted[|p.accepted|] then 1 else 0))
  {
  }

  /** After `i` visits the log has one entry per call, and the count is at most the calls, at most `i`. */
  lemma {:induction false} IndexPassShape(pineconeAvailable: bool, mistralAvailable: bool, start: Oracles,
                                          documents: seq<DocInput>, stamp: nat -> nat, i: nat)
    requires i <= |documents|
    ensures var p := IndexPass(pineconeAvailable, mistralAvailable, start, documents, stamp, i);
            && |p.attempted| == |p.ids| == |p.accepted| == |p.issued|
            && p.count <= |p.attempted| <= i
  {
    if i > 0 {
      IndexPassShape(pineconeAvailable, mistralAvailable, start, documents, stamp, i - 1);
      VisitShape(pineconeAvailable, mistralAvailable, documents, stamp, i - 1,
                 IndexPass(pineconeAvailable, mistralAvailable, start, documents, stamp, i - 1));
    }
  }

  /**
   * The indexing loop's state `p` after the first `i` documents, from the
   * provider state `start`: the calls made and counted (`Scanned`), their
   * upserts and the index's answers (`Upserted`), and their embedding calls
   * (`Embedded`).
   */
  ghost predicate Indexing(pineconeAvailable: bool, mistralAvailable: bool, start: Oracles,
                           documents: seq<DocInput>, stamp: nat -> nat, i: nat, p: Pass)
  {
    && Scanned(documents, stamp, i, p.attempted, p.ids, p.accepted, p.count)
    && Upserted(start.upserts, start.upsertScript, p.issued, p.ids, p.accepted, p.oracles.upserts, p.oracles.upsertScript)
    && Embedded(pineconeAvailable, mistralAvailable, start.embedScript, start.embedInputs, start.slept,
                documents[..i], p.issued, p.oracles.embedScript, p.oracles.embedInputs, p.oracles.slept)
  }

  /** An ineligible document leaves the loop state as it was. */
  lemma IndexingSkip(pineconeAvailable: bool, mistralAvailable: bool, start: Oracles,
                     documents: seq<DocInput>, stamp: nat -> nat, i: nat, p: Pass)
    requires Indexing(pineconeAvailable, mistralAvailable, start, documents, stamp, i, p)
    requires i < |documents| && !Eligible(documents[i])
    ensures Indexing(pineconeAvailable, mistralAvailable, start, documents, stamp, i + 1, p)
  {
    ScannedSkip(documents, stamp, i, p.attempted, p.ids, p.accepted, p.count);
    EmbeddedSkip(pineconeAvailable, mistralAvailable, start.embedScript, start.embedInputs, start.slept,
                 documents, i, p.issued, p.oracles.embedScript, p.oracles.embedInputs, p.oracles.slept);
  }

  /** An eligible document extends the loop state by its `add_document` call. */
  lemma IndexingAdd(pineconeAvailable: bool, mistralAvailable: bool, start: Oracles,
                    documents: seq<DocInput>, stamp: nat -> nat, i: nat, p: Pass)
    requires Indexing(pineconeAvailable, mistralAvailable, start, documents, stamp, i, p)
    requires i < |documents| && Eligible(documents[i])
    ensures Indexing(pineconeAvailable, mistralAvailable, start, documents, stamp, i + 1,
                     Visit(pineconeAvailable, mistralAvailable, documents, stamp, i, p))
  {
    var now := p.oracles;
    var a := IndexEmbedding(pineconeAvailable, mistralAvailable, now.embedScript);
    var did := EmbeddingOf(a.verdict) != [];
    var docId := DocId(documents[i], stamp(i), p.count);
    var r := AddEffect(pineconeAvailable, mistralAvailable, now, docId, documents[i]);
    var success := r.1;
    assert Visit(pineconeAvailable, mistralAvailable, documents, stamp, i, p)
           == Pass(r.0, p.attempted + [i], p.ids + [docId], p.accepted + [success],
                   p.issued + [did], p.count + (if success then 1 else 0));
    ScannedAdd(documents, stamp, i, p.attempted, p.ids, p.accepted, p.count, success);
    EmbeddedAdd(pineconeAvailable, mistralAvailable, start.embedScript, start.embedInputs, start.slept,
                documents, i, p.issued, now.embedScript, now.embedInputs, now.slept);
    UpsertedStep(start.upserts, start.upsertScript, p.issued, p.ids, p.accepted, now.upserts, now.upsertScript,
                 did, docId, success, r.0.upserts, r.0.upsertScript);
  }

  /** Any visit keeps the loop's invariant. */
  lemma IndexingVisit(pineconeAvailable: bool, mistralAvailable: bool, start: Oracles,
                      documents: seq<DocInput>, stamp: nat -> nat, i: nat, p: Pass)
    requires i < |documents|
    requires Indexing(pineconeAvailable, mistralAvailable, start, documents, stamp, i, p)
    ensures Indexing(pineconeAvailable, mistralAvailable, start, documents, stamp, i + 1,
                     Visit(pineconeAvailable, mistralAvailable, documents, stamp, i, p))
  {
    if Eligible(documents[i]) {
      IndexingAdd(pineconeAvailable, mistralAvailable, start, documents, stamp, i, p);
    } else {
      IndexingSkip(pineconeAvailable, mistralAvailable, start, documents, stamp, i, p);
    }
  }

  /** Before the first visit the loop state holds nothing but the provider state it starts from. */
  lemma IndexingStart(pineconeAvailable: bool, mistralAvailable: bool, start: Oracles,
                      documents: seq<DocInput>, stamp: nat -> nat)
    ensures Indexing(pineconeAvailable, mistralAvailable, start, documents, stamp, 0, Pass(start, [], [], [], [], 0))
  {
    assert documents[..0] == [];
  }

  /** Every prefix of the loop keeps the loop's invariant. */
  lemma {:induction false} IndexPassIndexing(pineconeAvailable: bool, mistralAvailable: bool, start: Oracles,
                                             documents: seq<DocInput>, stamp: nat -> nat, i: nat)
    requires i <= |documents|
    ensures Indexing(pineconeAvailable, mistralAvailable, start, documents, stamp, i,
                     IndexPass(pineconeAvailable, mistralAvailable, start, documents, stamp, i))
  {
    if i == 0 {
      IndexingStart(pineconeAvailable, mistralAvailable, start, documents, stamp);
    } else {
      IndexPassIndexing(pineconeAvailable, mistralAvailable, start, documents, stamp, i - 1);
      assert IndexPass(pineconeAvailable, mistralAvailable, start, documents, stamp, i)
             == Visit(pineconeAvailable, mistralAvailable, documents, stamp, i - 1,
                      IndexPass(pineconeAvailable, mistralAvailable, start, documents, stamp, i - 1));
      IndexingVisit(pineconeAvailable, mistralAvailable, start, documents, stamp, i - 1,
                    IndexPass(pineconeAvailable, mistralAvailable, start, documents, stamp, i - 1));
    }
  }

  /**
   * The indexing loop's final state `p` over all of `documents`, from the
   * provider state `start`: `add_document` was called for exactly the
   * eligible documents, in order, under the logged ids; its embedding calls
   * follow `EmbedPass`, which fixes which calls issued an upsert; each call's
   * outcome is the index's answer to its upsert; and the count is the number
   * of successes, which is the number of new upserts the index accepted.
   */
  ghost predicate IndexedAll(pineconeAvailable: bool, mistralAvailable: bool, start: Oracles,
                             documents: seq<DocInput>, stamp: nat -> nat, p: Pass)
  {
    && p.attempted == EligibleIndices(documents)
    && IdsLogged(documents, stamp, p.attempted, p.ids, p.accepted)
    && Embedded(pineconeAvailable, mistralAvailable, start.embedScript, start.embedInputs, start.slept,
                documents, p.issued, p.oracles.embedScript, p.oracles.embedInputs, p.oracles.slept)
    && Upserted(start.upserts, start.upsertScript, p.issued, p.ids, p.accepted, p.oracles.upserts, p.oracles.upsertScript)
    && p.count == CountTrue(p.accepted)
    && p.count == GrantedCount(start.upsertScript, |p.oracles.upserts| - |start.upserts|)
    && p.count <= |documents|
  }

  /** The whole loop's state has the properties `IndexedAll` names. */
  lemma IndexPassAll(pineconeAvailable: bool, mistralAvailable: bool, start: Oracles,
                     documents: seq<DocInput>, stamp: nat -> nat)
    ensures IndexedAll(pineconeAvailable, mistralAvailable, start, documents, stamp,
                       IndexPass(pineconeAvailable, mistralAvailable, start, documents, stamp, |documents|))
  {
    var p := IndexPass(pineconeAvailable, mistralAvailable, start, documents, stamp, |documents|);
    IndexPassIndexing(pineconeAvailable, mistralAvailable, start, documents, stamp, |documents|);
    ScannedAll(documents, stamp, p.attempted, p.ids, p.accepted, p.count);
    EmbeddedAll(pineconeAvailable, mistralAvailable, start.embedScript, start.embedInputs, start.slept,
                documents, p.issued, p.oracles.embedScript, p.oracles.embedInputs, p.oracles.slept);
    UpsertedCount(start.upserts, start.upsertScript, p.issued, p.ids, p.accepted, p.oracles.upserts, p.oracles.upsertScript);
  }

  /** Whether every scripted embedding call returns a non-empty vector and every scripted upsert is accepted. */
  ghost predicate AllAnswered(start: Oracles)
  {
    && (forall k :: 0 <= k < |start.embedScript| ==>
          start.embedScript[k].Returned? && start.embedScript[k].value != [])
    && (forall k :: 0 <= k < |start.upsertScript| ==> start.upsertScript[k])
  }

  /** Under answering scripts, a visit to an eligible document embeds it and has its upsert accepted. */
  lemma AnsweredVisit(start: Oracles, documents: seq<DocInput>, stamp: nat -> nat, i: nat, p: Pass)
    requires i < |documents| <= |start.embedScript| && |documents| <= |start.upsertScript|
    requires AllAnswered(start) && Eligible(documents[i])
    requires p.count <= i
    requires p.oracles.embedScript == start.embedScript[p.count..]
    requires p.oracles.upsertScript == start.upsertScript[p.count..]
    ensures var q := Visit(true, true, documents, stamp, i, p);
            && q.count == p.count + 1
            && q.accepted == p.accepted + [true]
            && q.oracles.embedScript == start.embedScript[p.count + 1..]
            && q.oracles.upsertScript == start.upsertScript[p.count + 1..]
  {
    var c := p.count;
    assert At(p.oracles.embedScript, 0) == start.embedScript[c];
    var a := IndexEmbedding(true, true, p.oracles.embedScript);
    assert a == Attempts(Succeeded(start.embedScript[c].value), [], 1);
    var r := AddEffect(true, true, p.oracles, DocId(documents[i], stamp(i), c), documents[i]);
    assert r.1 && r.0.embedScript == start.embedScript[c + 1..] && r.0.upsertScript == start.upsertScript[c + 1..];
  }

  /**
   * With both providers available and scripts that answer every call, the
   * first `i` visits index every eligible document among them, one embedding
   * call and one upsert each.
   */
  lemma {:induction false} IndexPassAnsweredPrefix(start: Oracles, documents: seq<DocInput>, stamp: nat -> nat, i: nat)
    requires i <= |documents| <= |start.embedScript| && |documents| <= |start.upsertScript|
    requires AllAnswered(start)
    ensures var p := IndexPass(true, true, start, documents, stamp, i);
            && p.count == |EligibleIndices(documents[..i])| <= i
            && p.accepted == Repeat(true, p.count)
            && p.oracles.embedScript == start.embedScript[p.count..]
            && p.oracles.upsertScript == start.upsertScript[p.count..]
  {
    assert |EligibleIndices(documents[..i])| <= i;
    if i > 0 {
      var p := IndexPass(true, true, start, documents, stamp, i - 1);
      var q := IndexPass(true, true, start, documents, stamp, i);
      assert q == Visit(true, true, documents, stamp, i - 1, p);
      IndexPassAnsweredPrefix(start, documents, stamp, i - 1);
      EligibleIndicesSnoc(documents, i - 1);
      if Eligible(documents[i - 1]) {
        AnsweredVisit(start, documents, stamp, i - 1, p);
        assert q.count == p.count + 1 == |EligibleIndices(documents[..i])|;
        assert q.accepted == Repeat(true, q.count) by {
          assert Repeat(true, p.count + 1) == Repeat(true, p.count) + [true];
        }
      } else {
        assert q == p;
      }
    }
  }

  /**
   * With both providers available and scripts that answer every call, the
   * loop indexes every eligible document: the count is their number and every
   * call succeeded.
   */
  lemma IndexPassAnswered(start: Oracles, documents: seq<DocInput>, stamp: nat -> nat)
    requires |documents| <= |start.embedScript| && |documents| <= |start.upsertScript|
    requires AllAnswered(start)
    ensures var p := IndexPass(true, true, start, documents, stamp, |documents|);
            && p.count == |EligibleIndices(documents)|
            && p.accepted == Repeat(true, p.count)
  {
    IndexPassAnsweredPrefix(start, documents, stamp, |documents|);
    assert documents[..|documents|] == documents;
  }

  /**
   * With either provider unavailable, no call embeds anything: every call
   * fails, nothing is upserted and the count stays 0.
   */
  lemma {:induction false} IndexPassUnavailable(pineconeAvailable: bool, mistralAvailable: bool, start: Oracles,
                                                documents: seq<DocInput>, stamp: nat -> nat, i: nat)
    requires i <= |documents|
    requires !pineconeAvailable || !mistralAvailable
    ensures var p := IndexPass(pineconeAvailable, mistralAvailable, start, documents, stamp, i);
            && p.count == 0
            && p.accepted == Repeat(false, |p.attempted|)
            && p.oracles == start
  {
    if i > 0 {
      var p := IndexPass(pineconeAvailable, mistralAvailable, start, documents, stamp, i - 1);
      IndexPassUnavailable(pineconeAvailable, mistralAvailable, start, documents, stamp, i - 1);
      assert Repeat(false, |p.attempted| + 1) == Repeat(false, |p.attempted|) + [false];
    }
  }

  /**
   * The `for doc in documents` loop of `DocumentIndexView.post`: its final
   * provider state, call log and count are those of `IndexPass`.
   */
  method IndexEach(service: RAGService, documents: seq<DocInput>, stamp: nat -> nat)
    returns (indexedCount: nat, ghost attempted: seq<nat>, ghost ids: seq<string>,
             ghost accepted: seq<bool>, ghost issued: seq<bool>)
    modifies service.mistral, service.index, service.clock
    ensures Pass(StateOf(service.mistral, service.index, service.clock), attempted, ids, accepted, issued, indexedCount)
            == IndexPass(service.pineconeAvailable, service.mistralAvailable,
                         old(StateOf(service.mistral, service.index, service.clock)), documents, stamp, |documents|)
    ensures service.mistral.chatScript == old(service.mistral.chatScript)
            && service.mistral.chatPrompts == old(service.mistral.chatPrompts)
    ensures service.index.queryScript == old(service.index.queryScript) && service.index.queries == old(service.index.queries)
  {
    attempted, ids, accepted, issued := [], [], [], [];
    indexedCount := 0;
    ghost var pa, ma := service.pineconeAvailable, service.mistralAvailable;
    ghost var start := StateOf(service.mistral, service.index, service.clock);
    for i := 0 to |documents|
      invariant Pass(StateOf(service.mistral, service.index, service.clock), attempted, ids, accepted, issued, indexedCount)
                == IndexPass(pa, ma, start, documents, stamp, i)
      invariant service.mistral.chatScript == old(service.mistral.chatScript)
      invariant service.mistral.chatPrompts == old(service.mistral.chatPrompts)
      invariant service.index.queryScript == old(service.index.queryScript)
      invariant service.index.queries == old(service.index.queries)
    {
      var doc := documents[i];
      var docId := DocId(doc, stamp(i), indexedCount);
      if Eligible(doc) {
        ghost var now := StateOf(service.mistral, service.index, service.clock);
        var success := AddOne(service, docId, doc);
        assert (StateOf(service.mistral, service.index, service.clock), success) == AddEffect(pa, ma, now, docId, doc);
        attempted, ids, accepted := attempted + [i], ids + [docId], accepted + [success];
        issued := issued + [EmbeddingOf(IndexEmbedding(pa, ma, now.embedScript).verdict) != []];
        if success {
          indexedCount := indexedCount + 1;
        }
      }
    }
  }
}

=== FILE: wrappers.dfy ===
/** Option and Result types shared by the other modules. */
module Wrappers {

  /** A value that may be absent (Python's `None`). */
  datatype Option<+T> = None | Some(value: T)

  /** A validated value, or the message of the validation error raised instead. */
  datatype Result<+T, +E> = Ok(value: T) | Err(error: E)
}
